=== FILE: README.md ===
# Finance view model, in Dafny

This project models the core of the Finance Android app: `CryptocurrencyViewModel` and the
records it works on, `Cryptocurrency` and `KlineData`. The view model holds five coin lists:
- the main market list, grown page by page;
- the search results;
- the gainers and the losers, scraped from a web page;
- the coins the user saved.

It also holds the candle history of the detail chart, a loading flag and a page counter. What
each operation does with the lists:
- page loading, the gainers/losers refresh and the startup load of the saved coins merge what
  came back into a list;
- a search replaces the search list with the body of its lookup;
- the lookup by ids returns a new list and changes no field;
- the history fetch publishes a freshly assembled candle list in place of the old one;
- saving and deleting update the saved list, with no fetch.

The model keeps that shape.
- `ViewModel.CryptocurrencyViewModel` is a class with the same fields, as `seq` values.
- Each Kotlin operation is a method with a `modifies` frame. It is proved against a
  specification function of the old state and of the remote answers.
- The answers a remote source gives are inputs to the model:
  - a `Response` is a failure, a non-success status, or a success with a body that may be null;
  - a retried fetch takes one answer per attempt.
- Clock readings are inputs too.

The modules are:
- `Model`: the records.
- `Retry`: the `repeat(15)` retry loop and its first-success rule.
- `Merge`: `list.addAll(page.filter { it !in list })`, the merge step of page loading, the
  lookup by ids, the gainers/losers merge into the main list, the history assembly and the
  startup load of the saved coins.
- `Commas`: `joinToString(",")`, which packs a list of ids or names into one query parameter.
- `Market`: page loading, the two-hop search and the lookup by ids.
- `GainersLosers`: scrape conversion, id backfill and the merge into the main list.
- `History`: the windowed candle requests and their assembly.
- `Saved`: the saved list.
- `ViewModel`: the class.

Two behaviours of the code shape the model.
- The gainers/losers refresh empties both lists before it fetches (lines 217-218). A fetch
  that fails therefore leaves them empty.
- The candle history is neither sorted nor deduplicated by open time. Windows are appended
  newest first. Within a window's rows, a candle is left out when an equal candle, equal in
  all six fields, is already held. A whole window adds nothing when its request throws, its
  status is not a success, its body is null, or one of its rows fails a cast.

## Model

Each source cell is a path and line range in the app sources.

| member | source | states |
|---|---|---|
| Model.CryptocurrencyEquality | app/src/main/java/com/receparslan/finance/model/Cryptocurrency.kt:12-29 | two coin rows are equal exactly when all seven fields are equal (data-class equality, which every `!in` filter uses) |
| Model.KlineDataEquality | app/src/main/java/com/receparslan/finance/model/Cryptocurrency.kt:31-38 | two candles are equal exactly when all six fields are equal, not when their open times are |
| Retry.FirstAnswerFrom | app/src/main/java/com/receparslan/finance/viewmodel/CryptocurrencyViewModel.kt:79-94 | the attempt that ends the loop is among the first 15 and answered; every attempt before it did not; None means none of the first 15 answered |
| Retry.AttemptCount | app/src/main/java/com/receparslan/finance/viewmodel/CryptocurrencyViewModel.kt:79-94 | the loop makes between 1 and 15 attempts: one past the first answer, or all 15 |
| Retry.FirstAnswerFromIgnoresLaterAttempts | app/src/main/java/com/receparslan/finance/viewmodel/CryptocurrencyViewModel.kt:79 | answers past the 15th attempt never change where the search for an answer ends, from any starting attempt |
| Retry.FirstAnswerIgnoresLaterAttempts | app/src/main/java/com/receparslan/finance/viewmodel/CryptocurrencyViewModel.kt:79 | the retry loop's outcome depends only on the first 15 answers |
| Merge.Fresh | app/src/main/java/com/receparslan/finance/viewmodel/CryptocurrencyViewModel.kt:85 | the filtered page is no longer than the page and holds exactly the page's entries that the list does not hold |
| Merge.AppendNew | app/src/main/java/com/receparslan/finance/viewmodel/CryptocurrencyViewModel.kt:85 | the old list stays as the prefix; the result holds exactly what the list or the page held; nothing appended was in the list before |
| Merge.FreshKeepsMultiplicity | app/src/main/java/com/receparslan/finance/viewmodel/CryptocurrencyViewModel.kt:85 | an absent entry occurs in the filtered page as often as in the page: duplicates inside one page are not removed |
| Merge.AppendNewIdempotent | app/src/main/java/com/receparslan/finance/viewmodel/CryptocurrencyViewModel.kt:85 | merging the same page a second time changes nothing |
| Merge.FreshOfPresent | app/src/main/java/com/receparslan/finance/viewmodel/CryptocurrencyViewModel.kt:85 | a page whose entries are all present adds nothing |
| Merge.FreshConcat | app/src/main/java/com/receparslan/finance/viewmodel/CryptocurrencyViewModel.kt:265 | filtering gainers followed by losers is filtering each against the same list and joining the results |
| Merge.FreshOfAbsent | app/src/main/java/com/receparslan/finance/viewmodel/CryptocurrencyViewModel.kt:85 | a page none of whose entries is present is appended whole, duplicates included |
| Merge.DistinctConcat | app/src/main/java/com/receparslan/finance/viewmodel/CryptocurrencyViewModel.kt:85 | two duplicate-free sequences with no common entry join into a duplicate-free sequence |
| Merge.FreshKeepsDistinct | app/src/main/java/com/receparslan/finance/viewmodel/CryptocurrencyViewModel.kt:85 | filtering a duplicate-free page keeps it duplicate-free |
| Merge.AppendNewKeepsDistinct | app/src/main/java/com/receparslan/finance/viewmodel/CryptocurrencyViewModel.kt:85 | the merge keeps a duplicate-free list duplicate-free when the page is duplicate-free |
| Commas.JoinWithCommas | app/src/main/java/com/receparslan/finance/viewmodel/CryptocurrencyViewModel.kt:111 | no contract of its own: the definition of `joinToString(",")`; `Commas.SplitJoin` states what it keeps |
| Commas.SplitJoin | app/src/main/java/com/receparslan/finance/viewmodel/CryptocurrencyViewModel.kt:111 | joining strings that hold no comma and cutting the result at its commas gives back exactly those strings, in order |
| Commas.JoinedSplitsBack | app/src/main/java/com/receparslan/finance/viewmodel/CryptocurrencyViewModel.kt:159 | any non-empty list comes back from its joined form, unless one of its strings holds a comma |
| Market.PageLoaded | app/src/main/java/com/receparslan/finance/viewmodel/CryptocurrencyViewModel.kt:79-94 | loading a page only appends: the old list is the prefix and no appended row was already present |
| Market.PageAnswered | app/src/main/java/com/receparslan/finance/viewmodel/CryptocurrencyViewModel.kt:83 | no contract of its own: a page attempt ends the loop exactly when its status is a success, whether or not the body is null |
| Market.PageLoadWithoutSuccess | app/src/main/java/com/receparslan/finance/viewmodel/CryptocurrencyViewModel.kt:79-94 | with no success among the first 15 answers, the list is unchanged after all 15 attempts |
| Market.PageLoadFirstSuccessWins | app/src/main/java/com/receparslan/finance/viewmodel/CryptocurrencyViewModel.kt:83-87 | the first success's body is filtered and appended, and the loop stops after that attempt |
| Market.PageLoadNullBodyKeepsList | app/src/main/java/com/receparslan/finance/viewmodel/CryptocurrencyViewModel.kt:83-87 | a first success with a null body still ends the loop after that attempt, and the list is left unchanged |
| Market.PageLoadTwiceIsOnce | app/src/main/java/com/receparslan/finance/viewmodel/CryptocurrencyViewModel.kt:85 | loading the same answers twice changes nothing the second time |
| Market.PageLoadIntoEmptyList | app/src/main/java/com/receparslan/finance/viewmodel/CryptocurrencyViewModel.kt:46-50 | after a home refresh, the main list is exactly the fetched page, duplicates included |
| Market.PageLoadKeepsRepricedDuplicate | app/src/main/java/com/receparslan/finance/viewmodel/CryptocurrencyViewModel.kt:85 | a coin refetched with a moved price is appended beside its old row, so one id occurs twice |
| Market.SearchIssued | app/src/main/java/com/receparslan/finance/viewmodel/CryptocurrencyViewModel.kt:104-114 | every attempt sends the query; it sends the lookup exactly when the search answered with a success status and a body |
| Market.IdsOf | app/src/main/java/com/receparslan/finance/viewmodel/CryptocurrencyViewModel.kt:111 | no contract of its own: the ids of the coins a search found, in order, as the `{ it.id }` selector gives them |
| Market.LookupNamesFoundIds | app/src/main/java/com/receparslan/finance/viewmodel/CryptocurrencyViewModel.kt:111-114 | the lookup sent after a search names the ids of the coins that search found, joined by commas; when that search found at least one coin and no id holds a comma, cutting it at the commas gives exactly those ids, in order |
| Market.SearchResult | app/src/main/java/com/receparslan/finance/viewmodel/CryptocurrencyViewModel.kt:104-138 | the search list is unchanged or is exactly the body of one of the first 15 lookups |
| Market.SearchAnswered | app/src/main/java/com/receparslan/finance/viewmodel/CryptocurrencyViewModel.kt:108-122 | no contract of its own: a search attempt ends the loop exactly when the search answered with a success status and a body and the lookup answered with a success status |
| Market.SearchReplacesWholesale | app/src/main/java/com/receparslan/finance/viewmodel/CryptocurrencyViewModel.kt:117-122 | the first attempt whose search has a body and whose lookup succeeds replaces the list with the lookup body and ends the loop |
| Market.SearchWithoutAnswerKeepsList | app/src/main/java/com/receparslan/finance/viewmodel/CryptocurrencyViewModel.kt:104-138 | with no such attempt among the first 15, the search list keeps its content |
| Market.LookupByIds | app/src/main/java/com/receparslan/finance/viewmodel/CryptocurrencyViewModel.kt:151-164 | no ids gives nothing; otherwise the result holds exactly the returned rows absent from the main list, and never more rows than were returned |
| GainersLosers.RowToCryptocurrency | app/src/main/java/com/receparslan/finance/viewmodel/CryptocurrencyViewModel.kt:234-250 | a row converts exactly when both numbers parse; the coin has an empty id and last update, the row's name, symbol and image, and the two parsed numbers as price and 24h change |
| GainersLosers.ConvertRows | app/src/main/java/com/receparslan/finance/viewmodel/CryptocurrencyViewModel.kt:233-258 | the coins are the leading rows converted one for one; complete means every row converted; otherwise the row after them throws |
| GainersLosers.ConvertRowsStops | app/src/main/java/com/receparslan/finance/viewmodel/CryptocurrencyViewModel.kt:233-258 | once a row has thrown, the later rows do not change the outcome |
| GainersLosers.ConvertRowsConcat | app/src/main/java/com/receparslan/finance/viewmodel/CryptocurrencyViewModel.kt:233-258 | converting two complete row runs one after the other joins their coins |
| GainersLosers.ScrapeLists | app/src/main/java/com/receparslan/finance/viewmodel/CryptocurrencyViewModel.kt:232-259 | every scraped gainer and loser has an empty id and last update; with at most one table there are no losers |
| GainersLosers.ScrapeListsStops | app/src/main/java/com/receparslan/finance/viewmodel/CryptocurrencyViewModel.kt:232-259 | once a table has thrown, the later tables are not looked at |
| GainersLosers.CompleteScrapeSplitsByTable | app/src/main/java/com/receparslan/finance/viewmodel/CryptocurrencyViewModel.kt:253-257 | in a scrape with no failing row, the gainers are the first table's rows and the losers are all later tables' rows, in order |
| GainersLosers.LastNameMatch | app/src/main/java/com/receparslan/finance/viewmodel/CryptocurrencyViewModel.kt:187-195 | None exactly when no looked-up record has the name; otherwise the last record with it |
| GainersLosers.Backfilled | app/src/main/java/com/receparslan/finance/viewmodel/CryptocurrencyViewModel.kt:187-195 | a row takes the id of the last record with its name, and `now`; with no such record it is unchanged; no other field changes |
| GainersLosers.NamesOf | app/src/main/java/com/receparslan/finance/viewmodel/CryptocurrencyViewModel.kt:262 | no contract of its own: the names of the rows, in order, as `map { it.name }` gives them |
| GainersLosers.NameQuery | app/src/main/java/com/receparslan/finance/viewmodel/CryptocurrencyViewModel.kt:180 | no contract of its own: every gainer's name, then every loser's, joined by commas; `GainersLosers.NameQueryNamesEveryRow` states what it keeps |
| GainersLosers.BackfilledStep | app/src/main/java/com/receparslan/finance/viewmodel/CryptocurrencyViewModel.kt:187-194 | one more looked-up record overwrites the row exactly when the names are equal |
| GainersLosers.BackfilledAll | app/src/main/java/com/receparslan/finance/viewmodel/CryptocurrencyViewModel.kt:184-199 | each row is backfilled in place and the length is kept; a failed lookup or null body changes nothing |
| GainersLosers.BackfilledAllStep | app/src/main/java/com/receparslan/finance/viewmodel/CryptocurrencyViewModel.kt:187-195 | backfilling from one more record overwrites the rows already backfilled by name |
| GainersLosers.Overwritten | app/src/main/java/com/receparslan/finance/viewmodel/CryptocurrencyViewModel.kt:188-194 | one looked-up record gives every row with its name the record's id and `now` as last update; every other row is kept; the length is kept |
| GainersLosers.NameQueryNamesEveryRow | app/src/main/java/com/receparslan/finance/viewmodel/CryptocurrencyViewModel.kt:178-180 | when the two lists are not both empty and no name holds a comma, the name lookup receives every gainer's name and then every loser's, in list order, and nothing else |
| GainersLosers.MergeGainersLosers | app/src/main/java/com/receparslan/finance/viewmodel/CryptocurrencyViewModel.kt:265 | the two filtered lists appended in one step are the merge of gainers followed by losers, both against the old main list |
| GainersLosers.GainersLosersRefreshed | app/src/main/java/com/receparslan/finance/viewmodel/CryptocurrencyViewModel.kt:206-272 | the main list only grows at its end; a failed fetch leaves both lists empty and main unchanged; a scrape with no failing row gives the scraped gainers and losers backfilled from the lookup, merged into main; a scrape that threw keeps the rows converted before the throw, not backfilled, and main unchanged |
| GainersLosers.CompleteRefreshSplitsByTable | app/src/main/java/com/receparslan/finance/viewmodel/CryptocurrencyViewModel.kt:206-272 | after a refresh with no failing row, the gainers are the first table's rows and the losers all later tables' rows, converted in order and backfilled from the lookup |
| History.TruncDiv | app/src/main/java/com/receparslan/finance/viewmodel/CryptocurrencyViewModel.kt:285 | Long `/` agrees with Euclidean division on a non-negative dividend; on a negative one it is one higher unless the division is exact |
| History.TruncDivBounds | app/src/main/java/com/receparslan/finance/viewmodel/CryptocurrencyViewModel.kt:285 | Long `/` gives the quotient rounded toward zero, for either sign |
| History.EndTime | app/src/main/java/com/receparslan/finance/viewmodel/CryptocurrencyViewModel.kt:278 | the end time is a whole second within one second of the clock, below it for a non-negative clock |
| History.IntervalMillis | app/src/main/java/com/receparslan/finance/viewmodel/CryptocurrencyViewModel.kt:281-282 | "1m", "1h" and "1d" give their lengths in milliseconds, each exactly for its name; anything else gives 1 |
| History.WindowCount | app/src/main/java/com/receparslan/finance/viewmodel/CryptocurrencyViewModel.kt:285 | the count is the span's whole intervals (Long division, toward zero) divided by 1000 and rounded up; it is at most zero exactly when the span is shorter than one interval |
| History.ToUpper | app/src/main/java/com/receparslan/finance/viewmodel/CryptocurrencyViewModel.kt:295 | uppercasing keeps the length; no `a`-`z` letter remains; each lowercase letter becomes its capital and every other character is kept |
| History.ToUpperIdempotent | app/src/main/java/com/receparslan/finance/viewmodel/CryptocurrencyViewModel.kt:295 | uppercasing twice is uppercasing once |
| History.IsQuoteCurrency | app/src/main/java/com/receparslan/finance/viewmodel/CryptocurrencyViewModel.kt:295 | no contract of its own: the symbol is the quote currency exactly when its uppercased form is USDT, the test at lines 295 and 308-311 |
| History.PairSymbol | app/src/main/java/com/receparslan/finance/viewmodel/CryptocurrencyViewModel.kt:295 | the pair always ends in USDT; it is BTCUSDT for USDT itself and the uppercased symbol followed by USDT otherwise |
| History.PairSymbolSharedByUsdtAndBtc | app/src/main/java/com/receparslan/finance/viewmodel/CryptocurrencyViewModel.kt:295 | USDT and BTC ask for the same pair, and no other symbol does |
| History.WindowEnd | app/src/main/java/com/receparslan/finance/viewmodel/CryptocurrencyViewModel.kt:297 | request 0 ends at the end time, and no request ends after it |
| History.WindowStart | app/src/main/java/com/receparslan/finance/viewmodel/CryptocurrencyViewModel.kt:296 | the last request starts one interval before the start time; every other request starts where the next one (one window older) ends |
| History.WindowRequest | app/src/main/java/com/receparslan/finance/viewmodel/CryptocurrencyViewModel.kt:294-298 | each request names the pair and the interval; request 0 ends at the end time; every request but the last spans exactly 1000 intervals; the last starts one interval before the start time |
| History.Plan | app/src/main/java/com/receparslan/finance/viewmodel/CryptocurrencyViewModel.kt:285-299 | there is no request exactly when the span from the start to the end time is shorter than one interval |
| History.Requests | app/src/main/java/com/receparslan/finance/viewmodel/CryptocurrencyViewModel.kt:292-299 | repeating the request `k` times issues exactly `k` requests |
| History.RequestsAt | app/src/main/java/com/receparslan/finance/viewmodel/CryptocurrencyViewModel.kt:294-299 | request `a` issued is window `a` of the window arithmetic |
| History.RequestsNext | app/src/main/java/com/receparslan/finance/viewmodel/CryptocurrencyViewModel.kt:292-299 | one more round of the loop issues one more request, at the end |
| History.PlanAt | app/src/main/java/com/receparslan/finance/viewmodel/CryptocurrencyViewModel.kt:285-299 | the plan has as many requests as the computed count, none when it is not positive, and request `a` is window `a` of the window arithmetic |
| History.FullWindowLength | app/src/main/java/com/receparslan/finance/viewmodel/CryptocurrencyViewModel.kt:296-297 | every window but the last spans exactly 1000 intervals |
| History.LastWindowLength | app/src/main/java/com/receparslan/finance/viewmodel/CryptocurrencyViewModel.kt:285-297 | the last window is non-empty and spans fewer than 1002 intervals |
| History.LastRequestLength | app/src/main/java/com/receparslan/finance/viewmodel/CryptocurrencyViewModel.kt:296-297 | the last request of a plan spans more than zero and fewer than 1002 intervals |
| History.LastWindowCanExceedLimit | app/src/main/java/com/receparslan/finance/viewmodel/CryptocurrencyViewModel.kt:285-297 | for a span of 120,059,999 ms at one-minute candles the plan has two windows, and the last one spans more than 1001 intervals: the bound of `LastWindowLength` is reached, not just approached |
| History.PlanTilesSpan | app/src/main/java/com/receparslan/finance/viewmodel/CryptocurrencyViewModel.kt:285-299 | the windows tile the span from one interval before the start to the end time, newest first and each starting where the next newer one ends; there are none exactly when the span is under one interval; all name the same pair and interval |
| History.PlanFullWindows | app/src/main/java/com/receparslan/finance/viewmodel/CryptocurrencyViewModel.kt:296-297 | in a plan, every request but the last spans exactly 1000 intervals |
| History.PlanLastWindow | app/src/main/java/com/receparslan/finance/viewmodel/CryptocurrencyViewModel.kt:296-297 | in a non-empty plan, the last request spans more than zero and fewer than 1002 intervals |
| History.PlanWindowLengths | app/src/main/java/com/receparslan/finance/viewmodel/CryptocurrencyViewModel.kt:285-297 | every window but the last spans 1000 intervals, the last fewer than 1002, and every window is non-empty |
| History.ToKline | app/src/main/java/com/receparslan/finance/viewmodel/CryptocurrencyViewModel.kt:303-313 | a row converts exactly when the fields read pass their casts; times are kept; prices are the row's, or all "1.0" for USDT |
| History.ToKlines | app/src/main/java/com/receparslan/finance/viewmodel/CryptocurrencyViewModel.kt:303-316 | the map succeeds exactly when every row converts, and then converts them one for one |
| History.WindowPoints | app/src/main/java/com/receparslan/finance/viewmodel/CryptocurrencyViewModel.kt:300-319 | on a success with a body whose rows all convert, the window brings exactly those candles, in row order; otherwise it brings nothing; every candle it brings comes from a row of the body |
| History.AssembledFromWindows | app/src/main/java/com/receparslan/finance/viewmodel/CryptocurrencyViewModel.kt:292-325 | a candle is held exactly when one of the windows fetched so far brought it |
| History.Assembled | app/src/main/java/com/receparslan/finance/viewmodel/CryptocurrencyViewModel.kt:292-325 | no contract of its own: the holder after `k` windows, each merged with the `filterNot { it in holder }` step; the lemmas beside it state its properties |
| History.AssembledNext | app/src/main/java/com/receparslan/finance/viewmodel/CryptocurrencyViewModel.kt:316-318 | one more window merges what that window brings into the holder |
| History.AssembledStep | app/src/main/java/com/receparslan/finance/viewmodel/CryptocurrencyViewModel.kt:318 | the holder after one more window starts with the holder before it |
| History.AssembledGrowsAtEnd | app/src/main/java/com/receparslan/finance/viewmodel/CryptocurrencyViewModel.kt:292-325 | the holder only grows at its end: after more windows, the holder after fewer windows is its prefix |
| History.HistoryOf | app/src/main/java/com/receparslan/finance/viewmodel/CryptocurrencyViewModel.kt:275-330 | a plan with no request publishes an empty history |
| History.QuoteCurrencyHistoryIsFlat | app/src/main/java/com/receparslan/finance/viewmodel/CryptocurrencyViewModel.kt:308-311 | for USDT every published candle has all four prices "1.0" |
| History.FailedWindowAddsNothing | app/src/main/java/com/receparslan/finance/viewmodel/CryptocurrencyViewModel.kt:300-324 | a window that fails, has no body or has a row that does not convert leaves the holder unchanged |
| History.AssembledIsNewestWindowFirst | app/src/main/java/com/receparslan/finance/viewmodel/CryptocurrencyViewModel.kt:318 | two different candles from two windows are held in fetch order, newest window first, whatever their open times |
| Saved.SavedWith | app/src/main/java/com/receparslan/finance/viewmodel/CryptocurrencyViewModel.kt:341-342 | saving appends exactly when no entry has the id, and afterwards some entry has it |
| Saved.SaveTwiceIsOnce | app/src/main/java/com/receparslan/finance/viewmodel/CryptocurrencyViewModel.kt:341-342 | saving the same record twice is saving it once |
| Saved.SaveKeepsUniqueIds | app/src/main/java/com/receparslan/finance/viewmodel/CryptocurrencyViewModel.kt:341-342 | saving keeps the saved ids unique |
| Saved.WithoutId | app/src/main/java/com/receparslan/finance/viewmodel/CryptocurrencyViewModel.kt:355-360 | deleting never lengthens the list |
| Saved.WithoutIdContents | app/src/main/java/com/receparslan/finance/viewmodel/CryptocurrencyViewModel.kt:355-360 | after deleting, exactly the entries with another id remain, and none has the id |
| Saved.WithoutAbsentId | app/src/main/java/com/receparslan/finance/viewmodel/CryptocurrencyViewModel.kt:355 | deleting an id that no entry has changes nothing |
| Saved.WithoutIdConcat | app/src/main/java/com/receparslan/finance/viewmodel/CryptocurrencyViewModel.kt:356-359 | deleting from a joined list deletes from each part |
| Saved.DeleteUndoesSave | app/src/main/java/com/receparslan/finance/viewmodel/CryptocurrencyViewModel.kt:333-362 | deleting a record just saved under a new id gives the list back |
| Saved.StartupLoadCanRepeatId | app/src/main/java/com/receparslan/finance/viewmodel/CryptocurrencyViewModel.kt:369 | the startup load filters by whole-record equality, so a stored row repriced from a listed one is added and its id occurs twice |
| ViewModel.CryptocurrencyViewModel.constructor | app/src/main/java/com/receparslan/finance/viewmodel/CryptocurrencyViewModel.kt:24-43 | page 1, not loading, empty search and history; main, gainer and loser lists are page 1 loaded and then refreshed from the scrape; saved list is the stored rows merged into an empty list |
| ViewModel.CryptocurrencyViewModel.RefreshHomeScreen | app/src/main/java/com/receparslan/finance/viewmodel/CryptocurrencyViewModel.kt:46-50 | page back to 1; the main list is page 1 loaded into an empty list; page 1 is asked for once per attempt made |
| ViewModel.CryptocurrencyViewModel.RefreshGainerLoserScreen | app/src/main/java/com/receparslan/finance/viewmodel/CryptocurrencyViewModel.kt:53-55 | the three lists are as the gainers/losers refresh leaves them; the name lookup is sent exactly when no row threw, with the scraped gainers' and losers' names |
| ViewModel.CryptocurrencyViewModel.RefreshDetailScreen | app/src/main/java/com/receparslan/finance/viewmodel/CryptocurrencyViewModel.kt:58-63 | page 1, not loading; the requests are the plan for the day before the clock at one-minute candles, and the history is assembled from their answers |
| ViewModel.CryptocurrencyViewModel.LoadMore | app/src/main/java/com/receparslan/finance/viewmodel/CryptocurrencyViewModel.kt:66-71 | while loading, nothing changes and nothing is asked for; otherwise the page counter goes up by one, the new page is asked for once per attempt made, and it is loaded into the main list |
| ViewModel.CryptocurrencyViewModel.AddCryptocurrenciesByPage | app/src/main/java/com/receparslan/finance/viewmodel/CryptocurrencyViewModel.kt:74-96 | the retry loop leaves the main list as the page loading specifies, asks for the given page once per attempt, makes the counted number of attempts, and ends not loading |
| ViewModel.CryptocurrencyViewModel.SearchCryptocurrencies | app/src/main/java/com/receparslan/finance/viewmodel/CryptocurrencyViewModel.kt:99-140 | the two-hop retry loop leaves the search list as the search specifies; each attempt made sends the query and, when the search gave a body, the lookup by that body's ids; it ends not loading |
| ViewModel.SearchLoop | app/src/main/java/com/receparslan/finance/viewmodel/CryptocurrencyViewModel.kt:104-138 | the `repeat(15)` loop of the search: the list the search specifies, and one attempt's requests per attempt made |
| ViewModel.CryptocurrencyViewModel.GetCryptocurrenciesByIds | app/src/main/java/com/receparslan/finance/viewmodel/CryptocurrencyViewModel.kt:143-175 | the holder is the lookup's rows absent from the main list; no request for no ids, otherwise the ids joined by commas, which give the ids back when none holds a comma; for no ids the loading flag is untouched |
| ViewModel.CryptocurrencyViewModel.SetCryptocurrencyIdsByNames | app/src/main/java/com/receparslan/finance/viewmodel/CryptocurrencyViewModel.kt:178-203 | the query is the gainers' and then the losers' names joined by commas; gainers and losers are each backfilled from the lookup |
| ViewModel.CryptocurrencyViewModel.OverwriteByName | app/src/main/java/com/receparslan/finance/viewmodel/CryptocurrencyViewModel.kt:188-194 | one looked-up record overwrites the id and last update of every gainer and loser with its name |
| ViewModel.CryptocurrencyViewModel.SetGainersAndLosersList | app/src/main/java/com/receparslan/finance/viewmodel/CryptocurrencyViewModel.kt:206-272 | the three lists are as the gainers/losers refresh specifies; the name query is sent exactly when no row threw, naming the scraped gainers and losers; it ends not loading |
| ViewModel.CryptocurrencyViewModel.AddTableRows | app/src/main/java/com/receparslan/finance/viewmodel/CryptocurrencyViewModel.kt:233-258 | table 0 appends its converted rows to the gainers, a later table to the losers; the other list is unchanged; reports whether no row threw |
| ViewModel.CryptocurrencyViewModel.SetCryptocurrencyHistory | app/src/main/java/com/receparslan/finance/viewmodel/CryptocurrencyViewModel.kt:275-330 | the requests are the plan, the published history is assembled from the plan's answers, and it ends not loading |
| ViewModel.CryptocurrencyViewModel.FetchHistory | app/src/main/java/com/receparslan/finance/viewmodel/CryptocurrencyViewModel.kt:287-329 | the issued requests and the published holder are those of the repeat loop, and it ends not loading |
| ViewModel.CollectWindows | app/src/main/java/com/receparslan/finance/viewmodel/CryptocurrencyViewModel.kt:292-325 | the loop issues the count's requests, newest window first, and the holder is every window merged in turn |
| ViewModel.ConvertTable | app/src/main/java/com/receparslan/finance/viewmodel/CryptocurrencyViewModel.kt:233-258 | the row loop of one table converts exactly the rows the conversion specification converts, and stops at the first row that throws |
| ViewModel.AddWindow | app/src/main/java/com/receparslan/finance/viewmodel/CryptocurrencyViewModel.kt:300-319 | one answer merges its converted candles into the holder, or adds nothing |
| ViewModel.CryptocurrencyViewModel.SaveCryptocurrency | app/src/main/java/com/receparslan/finance/viewmodel/CryptocurrencyViewModel.kt:333-345 | the saved list becomes the record saved into it |
| ViewModel.CryptocurrencyViewModel.DeleteCryptocurrency | app/src/main/java/com/receparslan/finance/viewmodel/CryptocurrencyViewModel.kt:348-362 | the saved list loses every entry with the record's id |
| ViewModel.CryptocurrencyViewModel.SetSavedCryptocurrencies | app/src/main/java/com/receparslan/finance/viewmodel/CryptocurrencyViewModel.kt:365-370 | the stored rows absent from the saved list are appended to it |

## Left out

- Network, HTML parsing, JSON decoding, coroutines, `delay` and logging are not modelled. A remote
  answer arrives as a `Response` value, and a scraped table as rows whose two numbers are
  already parsed or not. Work that the source launches is modelled as if it ran to its end
  before the next operation. Overlapping operations are not modelled. The loading flag has no
  invariant: another operation may have left it set.
- The local table (`CryptocurrencyDao`, `CryptocurrencyDatabase`) is not part of this model.
  The write-through of save and delete is not modelled. The startup load takes the stored rows
  as an input.
- The clock is an input. `Instant.now()` is read once per backfill run and modelled as one
  `now` string. The source reads it again for each matching row.
- Kotlin mutates the scraped rows in place during the backfill. The model replaces them by new
  values. No other list shares these rows at that point, because the merge into the main list
  comes after the backfill.
- `Double` prices are exact reals, and `Long`/`Int` are unbounded. Overflow of `page` is not
  modelled, and neither is the rounding of the Float division before `ceil`. The saturation of
  `toInt()` and the Double-to-Long cast of the candle times are not modelled either: a candle
  row arrives with its times already as integers.
- `uppercase()` is modelled for ASCII letters only.
- `getCryptocurrenciesByIds` returns its holder before the lookup fills it. The model returns
  the filled holder.
- ViewModel.CryptocurrencyViewModel.RefreshDetailScreen: its contract does not restate the main,
  gainer and loser lists, the pages asked for or the name query sent. They are what
  `RefreshHomeScreen` and then `RefreshGainerLoserScreen` leave and send, and those two
  contracts state them.
- ViewModel.CryptocurrencyViewModel.constructor: it does not return the pages asked for or the
  name query sent. `AddCryptocurrenciesByPage` and `SetGainersAndLosersList` state them.
- The exchange returns at most 1000 candles per request (`limit=1000`). The last window of a
  history spans just under 1002 intervals at most (up to 1002 candles), so its answer can be cut
  short; `History.LastWindowCanExceedLimit` gives a span where it does. Answers are inputs, so
  that cut is not modelled.
- The scrape request (its URL and client) and the candle request's `limit` parameter are fixed
  in the source and are not part of the modelled requests.

=== FILE: commas.dfy ===
/**
 * Kotlin's `joinToString(",")`, used to pass a list of ids or names in one query parameter,
 * and the cut at the commas that reads it back.
 */
module Commas {
  /** `joinToString(",")`: the strings in order, separated by commas. */
  function JoinWithCommas(items: seq<string>): string
    decreases |items|
  {
    if |items| == 0 then "" else if |items| == 1 then items[0] else items[0] + "," + JoinWithCommas(items[1..])
  }

  /** The receiving side of a comma-separated parameter: the string cut at every comma. */
  function SplitAtCommas(s: string): (r: seq<string>)
    ensures |r| >= 1
    decreases |s|
  {
    if s == [] then [""]
    else
      var rest := SplitAtCommas(s[1..]);
      if s[0] == ',' then [""] + rest else [[s[0]] + rest[0]] + rest[1..]
  }

  /** A character other than a comma joins the first piece. */
  lemma SplitCons(c: char, s: string)
    requires c != ','
    ensures SplitAtCommas([c] + s) == [[c] + SplitAtCommas(s)[0]] + SplitAtCommas(s)[1..]
  {
    assert ([c] + s)[1..] == s;
  }

  /** A comma-free prefix joins the first piece of what follows it. */
  lemma {:induction false} SplitAfterPlainPrefix(x: string, t: string)
    requires ',' !in x
    ensures SplitAtCommas(x + t) == [x + SplitAtCommas(t)[0]] + SplitAtCommas(t)[1..]
    decreases |x|
  {
    if x == [] {
      assert x + t == t;
      assert x + SplitAtCommas(t)[0] == SplitAtCommas(t)[0];
      assert SplitAtCommas(t) == [SplitAtCommas(t)[0]] + SplitAtCommas(t)[1..];
    } else {
      var head, tail := SplitAtCommas(t)[0], SplitAtCommas(t)[1..];
      assert x[0] in x;
      SplitAfterPlainPrefix(x[1..], t);
      assert x + t == [x[0]] + (x[1..] + t);
      SplitCons(x[0], x[1..] + t);
      assert [x[0]] + (x[1..] + head) == x + head;
    }
  }

  /**
   * Joining strings that hold no comma is undone by cutting at the commas: the receiver gets
   * exactly the strings that were joined.
   */
  lemma {:induction false} SplitJoin(items: seq<string>)
    requires |items| >= 1
    requires forall k :: 0 <= k < |items| ==> ',' !in items[k]
    ensures SplitAtCommas(JoinWithCommas(items)) == items
    decreases |items|
  {
    if |items| == 1 {
      SplitAfterPlainPrefix(items[0], "");
      assert items[0] + "" == items[0];
    } else {
      SplitJoin(items[1..]);
      var rest := JoinWithCommas(items[1..]);
      assert JoinWithCommas(items) == items[0] + ("," + rest);
      SplitAfterPlainPrefix(items[0], "," + rest);
      assert ("," + rest)[1..] == rest;
      assert SplitAtCommas("," + rest) == [""] + items[1..];
      assert items[0] + "" == items[0];
      assert items == [items[0]] + items[1..];
    }
  }

  /** Any non-empty list comes back from its joined form, unless one of its strings holds a comma. */
  lemma JoinedSplitsBack(items: seq<string>)
    requires |items| >= 1
    ensures SplitAtCommas(JoinWithCommas(items)) == items || exists k :: 0 <= k < |items| && ',' in items[k]
  {
    if forall k :: 0 <= k < |items| ==> ',' !in items[k] {
      SplitJoin(items);
    }
  }
}

=== FILE: gainers.dfy ===
/**
 * The gainers/losers screen after the HTML has been read: table rows become coin rows with
 * no id, the name lookup backfills ids, and the result is merged into the main list.
 * Selecting cells from the markup is not modelled; a row arrives with its texts extracted
 * and its two numbers parsed, or not parseable.
 */
module GainersLosers {
  import opened Options
  import opened Model
  import opened Retry
  import opened Merge
  import opened Commas

  /**
   * One table row: symbol, name and image as extracted; price and change as `toDouble()`
   * parsed them, None when the text is not a number (or the cell is missing), which throws.
   */
  datatype ScrapedRow = ScrapedRow(
    symbol: string,
    name: string,
    image: string,
    price: Option<real>,
    change: Option<real>)

  /** The coin row built from a scraped row, with empty `id` and `lastUpdated`; None when parsing throws. */
  function RowToCryptocurrency(row: ScrapedRow): (r: Option<Cryptocurrency>)
    ensures r.Some? <==> row.price.Some? && row.change.Some?
    ensures r.Some? ==> r.value.id == "" && r.value.lastUpdated == ""
    ensures r.Some? ==> r.value.name == row.name && r.value.symbol == row.symbol && r.value.image == row.image
    ensures r.Some? ==> r.value.currentPrice == row.price.value && r.value.priceChangePercentage24h == row.change.value
  {
    if row.price.Some? && row.change.Some? then
      Some(Cryptocurrency("", row.name, row.symbol, row.image, row.price.value, row.change.value, ""))
    else None
  }

  /** The rows converted before the first row that throws, and whether no row threw. */
  datatype Converted = Converted(coins: seq<Cryptocurrency>, complete: bool)

  /** `rows.forEach { ... list.add(...) }` until a row throws. */
  function ConvertRows(rows: seq<ScrapedRow>): (r: Converted)
    ensures |r.coins| <= |rows|
    ensures forall i :: 0 <= i < |r.coins| ==> RowToCryptocurrency(rows[i]) == Some(r.coins[i])
    ensures r.complete ==> |r.coins| == |rows|
    ensures !r.complete ==> |r.coins| < |rows| && RowToCryptocurrency(rows[|r.coins|]).None?
  {
    if rows == [] then Converted([], true)
    else
      var prev := ConvertRows(rows[..|rows| - 1]);
      if !prev.complete then prev
      else
        match RowToCryptocurrency(rows[|rows| - 1])
        case None => Converted(prev.coins, false)
        case Some(c) => Converted(prev.coins + [c], true)
  }

  /** Once a row has thrown, the rows after it are never looked at. */
  lemma {:induction false} ConvertRowsStops(rows: seq<ScrapedRow>, i: nat)
    requires i <= |rows| && !ConvertRows(rows[..i]).complete
    ensures ConvertRows(rows) == ConvertRows(rows[..i])
    decreases |rows| - i
  {
    if i < |rows| {
      var longer := rows[..i + 1];
      assert longer[..i] == rows[..i];
      ConvertRowsStops(rows, i + 1);
    } else {
      assert rows[..i] == rows;
    }
  }

  /** Converting two row sequences one after the other, when neither throws. */
  lemma {:induction false} ConvertRowsConcat(a: seq<ScrapedRow>, b: seq<ScrapedRow>)
    requires ConvertRows(a).complete && ConvertRows(b).complete
    ensures ConvertRows(a + b) == Converted(ConvertRows(a).coins + ConvertRows(b).coins, true)
    decreases |b|
  {
    if b == [] {
      assert a + b == a;
    } else {
      var init, last := b[..|b| - 1], b[|b| - 1];
      assert (a + b)[..|a + b| - 1] == a + init;
      assert (a + b)[|a + b| - 1] == last;
      assert b[..|b| - 1] == init;
      ConvertRowsConcat(a, init);
      var prefix := ConvertRows(a + init);
      assert prefix == Converted(ConvertRows(a).coins + ConvertRows(init).coins, true);
      match RowToCryptocurrency(last)
      case None =>
        assert false;
      case Some(c) =>
        assert ConvertRows(b).coins == ConvertRows(init).coins + [c];
        assert ConvertRows(a + b) == Converted(prefix.coins + [c], true);
        assert prefix.coins + [c] == ConvertRows(a).coins + (ConvertRows(init).coins + [c]);
    }
  }

  /** The gainer and loser lists being built, and whether the scrape has thrown yet. */
  datatype Scraped = Scraped(gainers: seq<Cryptocurrency>, losers: seq<Cryptocurrency>, complete: bool)

  /**
   * `headers.forEachIndexed`: rows of the first table are added to the gainers, rows of every
   * later table to the losers, each in row order, until a row throws.
   */
  function ScrapeLists(tables: seq<seq<ScrapedRow>>): (r: Scraped)
    ensures forall c :: c in r.gainers || c in r.losers ==> c.id == "" && c.lastUpdated == ""
    ensures |tables| <= 1 ==> r.losers == []
  {
    if tables == [] then Scraped([], [], true)
    else
      var prev := ScrapeLists(tables[..|tables| - 1]);
      if !prev.complete then prev
      else
        var last := ConvertRows(tables[|tables| - 1]);
        if |tables| == 1 then Scraped(last.coins, [], last.complete)
        else Scraped(prev.gainers, prev.losers + last.coins, last.complete)
  }

  /** All rows of a sequence of tables, table after table. */
  function Flatten(tables: seq<seq<ScrapedRow>>): seq<ScrapedRow>
  {
    if tables == [] then [] else Flatten(tables[..|tables| - 1]) + tables[|tables| - 1]
  }

  /** Once a table has thrown, the tables after it are never looked at. */
  lemma {:induction false} ScrapeListsStops(tables: seq<seq<ScrapedRow>>, t: nat)
    requires t <= |tables| && !ScrapeLists(tables[..t]).complete
    ensures ScrapeLists(tables) == ScrapeLists(tables[..t])
    decreases |tables| - t
  {
    if t < |tables| {
      var longer := tables[..t + 1];
      assert longer[..t] == tables[..t];
      ScrapeListsStops(tables, t + 1);
    } else {
      assert tables[..t] == tables;
    }
  }

  /**
   * A scrape with no failing row: the gainers are the first table's rows and the losers the
   * rows of all later tables, converted one for one and in row order.
   */
  lemma {:induction false} CompleteScrapeSplitsByTable(tables: seq<seq<ScrapedRow>>)
    requires |tables| > 0 && ScrapeLists(tables).complete
    ensures ConvertRows(tables[0]).complete && ScrapeLists(tables).gainers == ConvertRows(tables[0]).coins
    ensures ConvertRows(Flatten(tables[1..])).complete
    ensures ScrapeLists(tables).losers == ConvertRows(Flatten(tables[1..])).coins
  {
    if |tables| == 1 {
      assert tables[1..] == [];
    } else {
      var init := tables[..|tables| - 1];
      assert init[0] == tables[0];
      CompleteScrapeSplitsByTable(init);
      assert tables[1..] == init[1..] + [tables[|tables| - 1]];
      assert (init[1..] + [tables[|tables| - 1]])[..|init[1..]|] == init[1..];
      ConvertRowsConcat(Flatten(init[1..]), tables[|tables| - 1]);
    }
  }

  /**
   * The last record of `lookup` whose name is `name`: the loop at the backfill writes every
   * match in turn, so the last one is the one that stays.
   */
  function LastNameMatch(lookup: seq<Cryptocurrency>, name: string): (m: Option<Cryptocurrency>)
    ensures m.None? <==> forall k :: 0 <= k < |lookup| ==> lookup[k].name != name
    ensures m.Some? ==> exists k :: 0 <= k < |lookup| && lookup[k] == m.value && lookup[k].name == name &&
                                    forall j :: k < j < |lookup| ==> lookup[j].name != name
  {
    if lookup == [] then None
    else if lookup[|lookup| - 1].name == name then Some(lookup[|lookup| - 1])
    else LastNameMatch(lookup[..|lookup| - 1], name)
  }

  /**
   * A gainer or loser after the backfill: when some looked-up record has its name, the id of
   * the last such record and `now` as last update; otherwise the row as scraped. No other
   * field changes.
   */
  function Backfilled(c: Cryptocurrency, lookup: seq<Cryptocurrency>, now: string): (r: Cryptocurrency)
    ensures r.name == c.name && r.symbol == c.symbol && r.image == c.image
    ensures r.currentPrice == c.currentPrice && r.priceChangePercentage24h == c.priceChangePercentage24h
    ensures (forall k :: 0 <= k < |lookup| ==> lookup[k].name != c.name) ==> r == c
    ensures forall k :: (0 <= k < |lookup| && lookup[k].name == c.name &&
                         forall j :: k < j < |lookup| ==> lookup[j].name != c.name) ==>
                        r.id == lookup[k].id && r.lastUpdated == now
  {
    match LastNameMatch(lookup, c.name)
    case None => c
    case Some(m) => c.(id := m.id, lastUpdated := now)
  }

  /** One more looked-up record: it overwrites the row when the names are equal, else the row stays. */
  lemma BackfilledStep(c: Cryptocurrency, lookup: seq<Cryptocurrency>, i: nat, now: string)
    requires i < |lookup|
    ensures Backfilled(c, lookup[..i + 1], now) ==
      if lookup[i].name == c.name then c.(id := lookup[i].id, lastUpdated := now)
      else Backfilled(c, lookup[..i], now)
  {
    assert lookup[..i + 1][..i] == lookup[..i];
  }

  /** Every row of `list` backfilled from the lookup's body; nothing when the lookup failed. */
  function BackfilledAll(list: seq<Cryptocurrency>, lookup: Response<seq<Cryptocurrency>>, now: string): (r: seq<Cryptocurrency>)
    ensures |r| == |list|
    ensures lookup.Successful? && lookup.body.Some? ==>
      forall j :: 0 <= j < |list| ==> r[j] == Backfilled(list[j], lookup.body.value, now)
    ensures !(lookup.Successful? && lookup.body.Some?) ==> r == list
  {
    match lookup
    case Successful(Some(body)) => seq(|list|, j requires 0 <= j < |list| => Backfilled(list[j], body, now))
    case _ => list
  }

  /** One looked-up record applied to `list`: every row with its name takes its id and `now`. */
  function Overwritten(list: seq<Cryptocurrency>, record: Cryptocurrency, now: string): (r: seq<Cryptocurrency>)
    ensures |r| == |list|
    ensures forall j :: 0 <= j < |list| && list[j].name == record.name ==>
      r[j] == list[j].(id := record.id, lastUpdated := now)
    ensures forall j :: 0 <= j < |list| && list[j].name != record.name ==> r[j] == list[j]
  {
    seq(|list|, j requires 0 <= j < |list| =>
      if list[j].name == record.name then list[j].(id := record.id, lastUpdated := now) else list[j])
  }

  /** Backfilling from one more record is overwriting the rows already backfilled from the others. */
  lemma BackfilledAllStep(list: seq<Cryptocurrency>, body: seq<Cryptocurrency>, i: nat, now: string)
    requires i < |body|
    ensures BackfilledAll(list, Successful(Some(body[..i + 1])), now) ==
            Overwritten(BackfilledAll(list, Successful(Some(body[..i])), now), body[i], now)
  {
    var before := BackfilledAll(list, Successful(Some(body[..i])), now);
    var after := BackfilledAll(list, Successful(Some(body[..i + 1])), now);
    forall j | 0 <= j < |list|
      ensures after[j] == Overwritten(before, body[i], now)[j]
    {
      BackfilledStep(list[j], body, i, now);
    }
  }

  /** The names of the rows, in order. */
  function NamesOf(list: seq<Cryptocurrency>): seq<string>
  {
    seq(|list|, j requires 0 <= j < |list| => list[j].name)
  }

  /** The query of the name lookup: every gainer's name, then every loser's, joined by commas. */
  function NameQuery(gainers: seq<Cryptocurrency>, losers: seq<Cryptocurrency>): string
  {
    JoinWithCommas(NamesOf(gainers) + NamesOf(losers))
  }

  /**
   * When no name holds a comma, the name lookup receives the name of every gainer and then of
   * every loser, in list order, and nothing else.
   */
  lemma NameQueryNamesEveryRow(gainers: seq<Cryptocurrency>, losers: seq<Cryptocurrency>)
    requires |gainers| + |losers| >= 1
    requires forall c :: c in gainers + losers ==> ',' !in c.name
    ensures var names := SplitAtCommas(NameQuery(gainers, losers));
      && |names| == |gainers| + |losers|
      && (forall j :: 0 <= j < |gainers| ==> names[j] == gainers[j].name)
      && (forall j :: 0 <= j < |losers| ==> names[|gainers| + j] == losers[j].name)
  {
    var names := NamesOf(gainers) + NamesOf(losers);
    forall k | 0 <= k < |names|
      ensures ',' !in names[k]
    {
      if k < |gainers| {
        assert gainers[k] in gainers + losers;
      } else {
        assert losers[k - |gainers|] == (gainers + losers)[k];
      }
    }
    SplitJoin(names);
  }

  /** The tables of a successful scrape; a null body is an empty document, which has no table. */
  function ScrapedTables(scrape: Response<seq<seq<ScrapedRow>>>): seq<seq<ScrapedRow>>
    requires scrape.Successful?
  {
    if scrape.body.Some? then scrape.body.value else []
  }

  /** The page was fetched and no row of it threw. */
  predicate ScrapeCompleted(scrape: Response<seq<seq<ScrapedRow>>>)
  {
    scrape.Successful? && ScrapeLists(ScrapedTables(scrape)).complete
  }

  /**
   * `list.addAll(gainers.filter { it !in list } + losers.filter { it !in list })`: one append
   * of gainers followed by losers, both filtered against the list as it was before, so a row
   * that is both a gainer and a loser, and not in the list, is appended twice.
   */
  function MergeGainersLosers(main: seq<Cryptocurrency>, gainers: seq<Cryptocurrency>, losers: seq<Cryptocurrency>): (r: seq<Cryptocurrency>)
    ensures r == AppendNew(main, gainers + losers)
  {
    FreshConcat(gainers, losers, main);
    main + Fresh(gainers, main) + Fresh(losers, main)
  }

  /** The three lists the screen refresh leaves behind. */
  datatype ScrapeOutcome = ScrapeOutcome(
    gainers: seq<Cryptocurrency>,
    losers: seq<Cryptocurrency>,
    main: seq<Cryptocurrency>)

  /**
   * The gainers/losers refresh: both lists are emptied first; a failed page leaves them empty,
   * a row that throws leaves the rows before it and skips the rest; otherwise ids are
   * backfilled and the gainers, then the losers, that the main list does not already hold
   * are appended to it, both filtered against the main list as it was before.
   */
  function GainersLosersRefreshed(
    main: seq<Cryptocurrency>,
    scrape: Response<seq<seq<ScrapedRow>>>,
    lookup: Response<seq<Cryptocurrency>>,
    now: string): (r: ScrapeOutcome)
    ensures |main| <= |r.main| && r.main[..|main|] == main
    ensures !scrape.Successful? ==> r == ScrapeOutcome([], [], main)
    ensures ScrapeCompleted(scrape) ==> r.main == AppendNew(main, r.gainers + r.losers)
    ensures !ScrapeCompleted(scrape) ==> r.main == main
    ensures ScrapeCompleted(scrape) ==>
      && r.gainers == BackfilledAll(ScrapeLists(ScrapedTables(scrape)).gainers, lookup, now)
      && r.losers == BackfilledAll(ScrapeLists(ScrapedTables(scrape)).losers, lookup, now)
    ensures scrape.Successful? && !ScrapeCompleted(scrape) ==>
      && r.gainers == ScrapeLists(ScrapedTables(scrape)).gainers
      && r.losers == ScrapeLists(ScrapedTables(scrape)).losers
  {
    if !scrape.Successful? then ScrapeOutcome([], [], main)
    else
      var s := ScrapeLists(ScrapedTables(scrape));
      if !s.complete then ScrapeOutcome(s.gainers, s.losers, main)
      else
        var g := BackfilledAll(s.gainers, lookup, now);
        var l := BackfilledAll(s.losers, lookup, now);
        ScrapeOutcome(g, l, MergeGainersLosers(main, g, l))
  }

  /**
   * After a refresh whose page was fetched and whose rows all converted, the gainers are the
   * first table's rows and the losers the rows of all later tables, converted in row order
   * and then backfilled from the name lookup.
   */
  lemma CompleteRefreshSplitsByTable(
    main: seq<Cryptocurrency>,
    scrape: Response<seq<seq<ScrapedRow>>>,
    lookup: Response<seq<Cryptocurrency>>,
    now: string)
    requires ScrapeCompleted(scrape) && |ScrapedTables(scrape)| > 0
    ensures var r := GainersLosersRefreshed(main, scrape, lookup, now);
      var tables := ScrapedTables(scrape);
      && r.gainers == BackfilledAll(ConvertRows(tables[0]).coins, lookup, now)
      && r.losers == BackfilledAll(ConvertRows(Flatten(tables[1..])).coins, lookup, now)
  {
    CompleteScrapeSplitsByTable(ScrapedTables(scrape));
  }
}

=== FILE: history.dfy ===
/**
 * The candle history of the detail screen: the plan of windowed requests that covers the
 * span from a start time to now, the trading pair asked for, and the assembly of the
 * answers into one list.
 */
module History {
  import opened Options
  import opened Model
  import opened Retry
  import opened Merge

  /** `klines?limit=1000`: the most candles one request returns. */
  const KlineLimit: int := 1000

  /** The price every candle of the quote currency itself gets. */
  const UnitPrice: string := "1.0"

  /** Kotlin's `/` on `Long`: the quotient rounded toward zero. */
  function TruncDiv(a: int, b: int): (q: int)
    requires b > 0
    ensures 0 <= a ==> q == a / b
    ensures a < 0 && a % b == 0 ==> q == a / b
    ensures a < 0 && a % b != 0 ==> q == a / b + 1
  {
    if 0 <= a then a / b else NegativeDiv(a, b); -((-a) / b)
  }

  /** Euclidean division fixes quotient and remainder: any such pair is the one `/` and `%` give. */
  lemma DivUnique(a: int, b: int, x: int, r: int)
    requires b > 0 && a == x * b + r && 0 <= r < b
    ensures a / b == x && a % b == r
  {
    var q, s := a / b, a % b;
    assert a == q * b + s;
    assert (x - q) * b == s - r;
    if x > q {
      MulMono(1, x - q, b);
    } else if x < q {
      MulMono(1, q - x, b);
    }
  }

  /** For a negative dividend, rounding toward zero is one above Euclidean division unless it is exact. */
  lemma NegativeDiv(a: int, b: int)
    requires a < 0 && b > 0
    ensures a % b == 0 ==> -((-a) / b) == a / b
    ensures a % b != 0 ==> -((-a) / b) == a / b + 1
  {
    var qm, rm := (-a) / b, (-a) % b;
    assert -a == qm * b + rm && 0 <= rm < b;
    if rm == 0 {
      DivUnique(a, b, -qm, 0);
    } else {
      assert a == (-qm - 1) * b + (b - rm);
      DivUnique(a, b, -qm - 1, b - rm);
    }
  }

  /** The truncated quotient is the whole number of divisors towards zero. */
  lemma TruncDivBounds(a: int, b: int)
    requires b > 0
    ensures var q := TruncDiv(a, b);
      && (0 <= a ==> 0 <= q && q * b <= a < q * b + b)
      && (a < 0 ==> q <= 0 && q * b - b < a <= q * b)
  {
    if 0 <= a {
      DivBounds(a, b);
    } else {
      DivBounds(-a, b);
    }
  }

  /** Euclidean division of a non-negative number, as bounds on the quotient. */
  lemma DivBounds(a: int, b: int)
    requires 0 <= a && b > 0
    ensures 0 <= a / b && (a / b) * b <= a < (a / b) * b + b
  {
    var q, r := a / b, a % b;
    assert a == q * b + r;
  }

  /** `(System.currentTimeMillis() / 1000) * 1000`: the clock truncated to a whole second. */
  function EndTime(now: int): (r: int)
    ensures r % 1000 == 0
    ensures 0 <= now ==> r <= now < r + 1000
    ensures now < 0 ==> r - 1000 < now <= r
  {
    TruncDivBounds(now, 1000);
    TruncDiv(now, 1000) * 1000
  }

  /** The length of one candle in milliseconds; any interval other than "1m", "1h", "1d" gives 1. */
  function IntervalMillis(interval: string): (r: int)
    ensures r >= 1
    ensures r == 60 * 1000 <==> interval == "1m"
    ensures r == 60 * 60 * 1000 <==> interval == "1h"
    ensures r == 24 * 60 * 60 * 1000 <==> interval == "1d"
    ensures r == 1 <==> interval != "1m" && interval != "1h" && interval != "1d"
  {
    if interval == "1m" then 60 * 1000
    else if interval == "1h" then 60 * 60 * 1000
    else if interval == "1d" then 24 * 60 * 60 * 1000
    else 1
  }

  /**
   * `ceil((endTime - startTime) / intervalTimeMillis / 1000F).toInt()`: how many requests of
   * KlineLimit candles the span needs, the least count whose capacity reaches the number of
   * whole intervals in it. Zero or less when the span holds no whole interval.
   */
  function WindowCount(startTime: int, endTime: int, intervalMillis: int): (n: int)
    requires intervalMillis >= 1
    ensures var q := TruncDiv(endTime - startTime, intervalMillis);
      (n - 1) * KlineLimit < q <= n * KlineLimit
    ensures n <= 0 <==> endTime - startTime < intervalMillis
  {
    var q := TruncDiv(endTime - startTime, intervalMillis);
    TruncDivBounds(endTime - startTime, intervalMillis);
    QuotientSign(endTime - startTime, intervalMillis, q);
    -((-q) / KlineLimit)
  }

  /** A truncated quotient is positive exactly when the dividend reaches the divisor. */
  lemma QuotientSign(d: int, i: int, q: int)
    requires i >= 1
    requires 0 <= d ==> 0 <= q && q * i <= d < q * i + i
    requires d < 0 ==> q <= 0 && q * i - i < d <= q * i
    ensures q <= 0 <==> d < i
  {
    if q >= 1 {
      assert q * i == (q - 1) * i + i;
      assert (q - 1) * i >= 0;
    }
  }

  /** The first request covers the newest span; the last one starts one interval before `startTime`. */
  function WindowStart(a: int, n: int, startTime: int, endTime: int, intervalMillis: int): (r: int)
    ensures a == n - 1 ==> r == startTime - intervalMillis
    ensures a != n - 1 ==> r == WindowEnd(a + 1, endTime, intervalMillis)
  {
    if a == n - 1 then startTime - intervalMillis else endTime - (a + 1) * intervalMillis * KlineLimit
  }

  /** Request `a` ends `a` full windows before the end time. */
  function WindowEnd(a: int, endTime: int, intervalMillis: int): (r: int)
    ensures a == 0 ==> r == endTime
    ensures 0 <= a && 0 <= intervalMillis ==> r <= endTime
  {
    endTime - a * intervalMillis * KlineLimit
  }

  /** Kotlin's `uppercase()` on one character, for the ASCII letters. */
  function UpperChar(c: char): (r: char)
    ensures !('a' <= r <= 'z')
    ensures !('a' <= c <= 'z') ==> r == c
    ensures 'a' <= c <= 'z' ==> 'A' <= r <= 'Z' && r as int - 'A' as int == c as int - 'a' as int
  {
    if 'a' <= c <= 'z' then (c as int - 'a' as int + 'A' as int) as char else c
  }

  /**
   * Kotlin's `uppercase()`, for the ASCII letters: the length is kept, no lowercase letter is
   * left, every other character is kept, and each lowercase letter becomes its capital.
   */
  function ToUpper(s: string): (r: string)
    ensures |r| == |s|
    ensures forall i :: 0 <= i < |r| ==> !('a' <= r[i] <= 'z')
    ensures forall i :: 0 <= i < |s| && !('a' <= s[i] <= 'z') ==> r[i] == s[i]
    ensures forall i :: 0 <= i < |s| && 'a' <= s[i] <= 'z' ==>
      'A' <= r[i] <= 'Z' && r[i] as int - 'A' as int == s[i] as int - 'a' as int
  {
    seq(|s|, i requires 0 <= i < |s| => UpperChar(s[i]))
  }

  /** Uppercasing twice is uppercasing once. */
  lemma ToUpperIdempotent(s: string)
    ensures ToUpper(ToUpper(s)) == ToUpper(s)
  {
  }

  /** The symbol asks for its quote currency itself, which the exchange has no pair for. */
  predicate IsQuoteCurrency(symbol: string)
  {
    ToUpper(symbol) == "USDT"
  }

  /**
   * The trading pair requested: the symbol quoted in USDT, and BTCUSDT (whose prices are then
   * overwritten) for USDT itself.
   */
  function PairSymbol(symbol: string): (r: string)
    ensures |r| >= 4 && r[|r| - 4..] == "USDT"
    ensures IsQuoteCurrency(symbol) ==> r == "BTCUSDT"
    ensures !IsQuoteCurrency(symbol) ==> r[..|r| - 4] == ToUpper(symbol)
  {
    var upper := ToUpper(symbol);
    if upper == "USDT" then "BTCUSDT" else upper + "USDT"
  }

  /** USDT and BTC both ask for the pair BTCUSDT, and no other symbol does. */
  lemma PairSymbolSharedByUsdtAndBtc(symbol: string)
    ensures PairSymbol(symbol) == "BTCUSDT" <==> ToUpper(symbol) == "USDT" || ToUpper(symbol) == "BTC"
  {
    var upper := ToUpper(symbol);
    if upper != "USDT" && PairSymbol(symbol) == "BTCUSDT" {
      assert upper == (upper + "USDT")[..|upper|];
      assert upper == "BTCUSDT"[..3];
    }
  }

  /** One request of the plan: `getHistoricalDataByRange(symbol, startTime, endTime, interval)`. */
  datatype KlineRequest = KlineRequest(symbol: string, startTime: int, endTime: int, interval: string)

  /** Request `a` of `n` for the trading pair `pair`, going back from `endTime`. */
  function WindowRequest(pair: string, a: int, n: int, startTime: int, endTime: int, intervalMillis: int, interval: string): (r: KlineRequest)
    ensures r.symbol == pair && r.interval == interval
    ensures a == 0 ==> r.endTime == endTime
    ensures a == n - 1 ==> r.startTime == startTime - intervalMillis
    ensures a != n - 1 ==> r.endTime - r.startTime == KlineLimit * intervalMillis
  {
    var r := KlineRequest(pair, WindowStart(a, n, startTime, endTime, intervalMillis),
                          WindowEnd(a, endTime, intervalMillis), interval);
    if a != n - 1 then FullWindowLength(a, n, startTime, endTime, intervalMillis); r else r
  }

  /** The requests issued for a history, newest window first; none when the count is not positive. */
  function Plan(symbol: string, startTime: int, interval: string, now: int): (p: seq<KlineRequest>)
    ensures |p| == 0 <==> EndTime(now) - startTime < IntervalMillis(interval)
  {
    var endTime := EndTime(now);
    var intervalMillis := IntervalMillis(interval);
    var n := WindowCount(startTime, endTime, intervalMillis);
    Requests(PairSymbol(symbol), if n > 0 then n else 0, n, startTime, endTime, intervalMillis, interval)
  }

  /** The first `k` requests of a plan of `n` windows, in the order they are issued. */
  function Requests(pair: string, k: nat, n: int, startTime: int, endTime: int, intervalMillis: int, interval: string): (r: seq<KlineRequest>)
    ensures |r| == k
  {
    if k == 0 then []
    else Requests(pair, k - 1, n, startTime, endTime, intervalMillis, interval) +
         [WindowRequest(pair, k - 1, n, startTime, endTime, intervalMillis, interval)]
  }

  /** One more window of the loop issues one more request, at the end. */
  lemma RequestsNext(pair: string, k: nat, n: int, startTime: int, endTime: int, intervalMillis: int, interval: string)
    ensures Requests(pair, k + 1, n, startTime, endTime, intervalMillis, interval) ==
            Requests(pair, k, n, startTime, endTime, intervalMillis, interval) +
            [WindowRequest(pair, k, n, startTime, endTime, intervalMillis, interval)]
  {
  }

  /** Request `a` issued is request `a` of the window arithmetic. */
  lemma {:induction false} RequestsAt(pair: string, k: nat, n: int, startTime: int, endTime: int, intervalMillis: int, interval: string)
    ensures forall a :: 0 <= a < k ==>
      Requests(pair, k, n, startTime, endTime, intervalMillis, interval)[a] ==
      WindowRequest(pair, a, n, startTime, endTime, intervalMillis, interval)
  {
    if k > 0 {
      RequestsAt(pair, k - 1, n, startTime, endTime, intervalMillis, interval);
    }
  }

  /** Every window but the last spans exactly KlineLimit intervals. */
  lemma FullWindowLength(a: int, n: int, startTime: int, endTime: int, i: int)
    requires a != n - 1
    ensures WindowEnd(a, endTime, i) - WindowStart(a, n, startTime, endTime, i) == KlineLimit * i
  {
    calc {
      WindowEnd(a, endTime, i) - WindowStart(a, n, startTime, endTime, i);
      (a + 1) * i * KlineLimit - a * i * KlineLimit;
      { assert (a + 1) * i == a * i + i; }
      KlineLimit * i;
    }
  }

  /** Multiplying by a positive number keeps the order. */
  lemma MulMono(x: int, y: int, i: int)
    requires x <= y && i >= 1
    ensures x * i <= y * i
  {
    assert y * i - x * i == (y - x) * i;
  }

  /**
   * The last window, from one interval before `startTime` to `endTime` less the full windows
   * before it, is non-empty and spans less than KlineLimit + 2 intervals. It can therefore
   * span more than KlineLimit intervals: it then asks for more candles than one request with
   * `limit=1000` returns, and the exchange's answer is cut short. Answers are inputs here, so
   * that cut is not modelled.
   */
  lemma LastWindowLength(startTime: int, endTime: int, i: int)
    requires i >= 1
    requires WindowCount(startTime, endTime, i) >= 1
    ensures var n := WindowCount(startTime, endTime, i);
      var len := WindowEnd(n - 1, endTime, i) - WindowStart(n - 1, n, startTime, endTime, i);
      0 < len < (KlineLimit + 2) * i
  {
    var n := WindowCount(startTime, endTime, i);
    var q := TruncDiv(endTime - startTime, i);
    TruncDivBounds(endTime - startTime, i);
    var full := (n - 1) * KlineLimit;
    assert full < q <= full + KlineLimit;
    assert q * i <= endTime - startTime < q * i + i;
    MulMono(full + 1, q, i);
    MulMono(q, full + KlineLimit, i);
    assert (full + 1) * i == full * i + i;
    assert (full + KlineLimit) * i == full * i + KlineLimit * i;
    assert (n - 1) * i * KlineLimit == full * i;
  }

  /**
   * The bound of `LastWindowLength` is met: from 1 to 120060000 at one-minute candles there are
   * two windows, and the last spans more than KlineLimit + 1 intervals.
   */
  lemma LastWindowCanExceedLimit()
    ensures var n := WindowCount(1, 120060000, 60000);
      && n == 2
      && WindowEnd(n - 1, 120060000, 60000) - WindowStart(n - 1, n, 1, 120060000, 60000) > (KlineLimit + 1) * 60000
  {
    assert TruncDiv(120060000 - 1, 60000) == 2000;
  }

  /** The last request of a plan of `n` windows spans what `LastWindowLength` allows. */
  lemma LastRequestLength(pair: string, n: int, startTime: int, endTime: int, i: int, interval: string)
    requires i >= 1 && n == WindowCount(startTime, endTime, i) && n >= 1
    ensures var r := WindowRequest(pair, n - 1, n, startTime, endTime, i, interval);
      0 < r.endTime - r.startTime < (KlineLimit + 2) * i
  {
    LastWindowLength(startTime, endTime, i);
  }

  /** Request `a` of a plan is window `a` of the window arithmetic, for the computed count. */
  lemma PlanAt(symbol: string, startTime: int, interval: string, now: int)
    ensures var e := EndTime(now);
      var i := IntervalMillis(interval);
      var n := WindowCount(startTime, e, i);
      var p := Plan(symbol, startTime, interval, now);
      && |p| == (if n > 0 then n else 0)
      && forall a :: 0 <= a < |p| ==> p[a] == WindowRequest(PairSymbol(symbol), a, n, startTime, e, i, interval)
  {
    var e := EndTime(now);
    var i := IntervalMillis(interval);
    var n := WindowCount(startTime, e, i);
    RequestsAt(PairSymbol(symbol), if n > 0 then n else 0, n, startTime, e, i, interval);
  }

  /**
   * The plan tiles the span from one interval before `startTime` to the end time: there is no
   * window exactly when the span is shorter than one interval, the first window ends at the
   * end time, the last starts at `startTime` minus one interval, and each window starts where
   * the one before it (one step newer) ends. All requests name the same pair and interval.
   */
  lemma PlanTilesSpan(symbol: string, startTime: int, interval: string, now: int)
    ensures var p := Plan(symbol, startTime, interval, now);
      var i := IntervalMillis(interval);
      && (|p| == 0 <==> EndTime(now) - startTime < i)
      && (|p| > 0 ==> p[0].endTime == EndTime(now) && p[|p| - 1].startTime == startTime - i)
      && (forall a :: 0 <= a < |p| - 1 ==> p[a + 1].endTime == p[a].startTime)
      && (forall a :: 0 <= a < |p| ==> p[a].symbol == PairSymbol(symbol) && p[a].interval == interval)
  {
    var p := Plan(symbol, startTime, interval, now);
    var e := EndTime(now);
    var i := IntervalMillis(interval);
    var n := WindowCount(startTime, e, i);
    PlanAt(symbol, startTime, interval, now);
    assert |p| == 0 <==> e - startTime < i;
    forall a | 0 <= a < |p| - 1
      ensures p[a + 1].endTime == p[a].startTime
    {
      assert p[a + 1].endTime == WindowEnd(a + 1, e, i);
      assert p[a].startTime == WindowStart(a, n, startTime, e, i);
    }
  }

  /** Every window of a plan but the last spans exactly KlineLimit intervals. */
  lemma PlanFullWindows(symbol: string, startTime: int, interval: string, now: int)
    ensures var p := Plan(symbol, startTime, interval, now);
      forall a :: 0 <= a < |p| - 1 ==> p[a].endTime - p[a].startTime == KlineLimit * IntervalMillis(interval)
  {
    var p := Plan(symbol, startTime, interval, now);
    var e := EndTime(now);
    var i := IntervalMillis(interval);
    var n := WindowCount(startTime, e, i);
    PlanAt(symbol, startTime, interval, now);
    forall a | 0 <= a < |p| - 1
      ensures p[a].endTime - p[a].startTime == KlineLimit * i
    {
      FullWindowLength(a, n, startTime, e, i);
    }
  }

  /** The last window of a plan is non-empty and spans fewer than KlineLimit + 2 intervals. */
  lemma PlanLastWindow(symbol: string, startTime: int, interval: string, now: int)
    ensures var p := Plan(symbol, startTime, interval, now);
      |p| > 0 ==> 0 < p[|p| - 1].endTime - p[|p| - 1].startTime < (KlineLimit + 2) * IntervalMillis(interval)
  {
    var p := Plan(symbol, startTime, interval, now);
    if |p| > 0 {
      var e := EndTime(now);
      var i := IntervalMillis(interval);
      var n := WindowCount(startTime, e, i);
      PlanAt(symbol, startTime, interval, now);
      LastRequestLength(PairSymbol(symbol), n, startTime, e, i, interval);
    }
  }

  /**
   * The lengths of the windows of a plan: every window but the last spans exactly KlineLimit
   * intervals, the last spans less than KlineLimit + 2, and every window is non-empty.
   */
  lemma PlanWindowLengths(symbol: string, startTime: int, interval: string, now: int)
    ensures var p := Plan(symbol, startTime, interval, now);
      var i := IntervalMillis(interval);
      && (forall a :: 0 <= a < |p| - 1 ==> p[a].endTime - p[a].startTime == KlineLimit * i)
      && (|p| > 0 ==> p[|p| - 1].endTime - p[|p| - 1].startTime < (KlineLimit + 2) * i)
      && (forall a :: 0 <= a < |p| ==> p[a].startTime < p[a].endTime)
  {
    var p := Plan(symbol, startTime, interval, now);
    PlanFullWindows(symbol, startTime, interval, now);
    PlanLastWindow(symbol, startTime, interval, now);
    forall a | 0 <= a < |p|
      ensures p[a].startTime < p[a].endTime
    {
      if a < |p| - 1 {
        assert p[a].endTime - p[a].startTime == KlineLimit * IntervalMillis(interval);
      }
    }
  }

  /**
   * One candle row as the exchange sends it, fields 0 to 4 and 6: None where a field is not
   * of the type the cast expects (or the row is too short), which throws.
   */
  datatype RawKline = RawKline(
    openTime: Option<int>,
    open: Option<string>,
    high: Option<string>,
    low: Option<string>,
    close: Option<string>,
    closeTime: Option<int>)

  /**
   * The candle built from a row: the four prices are the row's, or all UnitPrice (and then
   * not read) for the quote currency itself; None when a field that is read fails its cast.
   */
  function ToKline(raw: RawKline, quote: bool): (r: Option<KlineData>)
    ensures r.Some? <==> raw.openTime.Some? && raw.closeTime.Some? &&
                         (quote || (raw.open.Some? && raw.high.Some? && raw.low.Some? && raw.close.Some?))
    ensures r.Some? ==> r.value.openTime == raw.openTime.value && r.value.closeTime == raw.closeTime.value
    ensures r.Some? && quote ==> r.value.open == UnitPrice && r.value.high == UnitPrice &&
                                 r.value.low == UnitPrice && r.value.close == UnitPrice
    ensures r.Some? && !quote ==> Some(r.value.open) == raw.open && Some(r.value.high) == raw.high &&
                                  Some(r.value.low) == raw.low && Some(r.value.close) == raw.close
  {
    if raw.openTime.None? || raw.closeTime.None? then None
    else if quote then
      Some(KlineData(raw.openTime.value, UnitPrice, UnitPrice, UnitPrice, UnitPrice, raw.closeTime.value))
    else if raw.open.None? || raw.high.None? || raw.low.None? || raw.close.None? then None
    else
      Some(KlineData(raw.openTime.value, raw.open.value, raw.high.value, raw.low.value,
                     raw.close.value, raw.closeTime.value))
  }

  /** `body.map { ... }`: every row converted, in order; None when any row throws. */
  function ToKlines(rows: seq<RawKline>, quote: bool): (r: Option<seq<KlineData>>)
    ensures r.Some? <==> forall i :: 0 <= i < |rows| ==> ToKline(rows[i], quote).Some?
    ensures r.Some? ==> |r.value| == |rows| && forall i :: 0 <= i < |rows| ==> ToKline(rows[i], quote) == Some(r.value[i])
  {
    if rows == [] then Some([])
    else
      match (ToKline(rows[0], quote), ToKlines(rows[1..], quote))
      case (Some(k), Some(ks)) => Some([k] + ks)
      case _ => None
  }

  /** What one window contributes: its converted rows on a success with a body, else nothing. */
  function WindowPoints(response: Response<seq<RawKline>>, quote: bool): (r: seq<KlineData>)
    ensures forall k :: k in r ==> exists raw :: response.Successful? && response.body.Some? &&
                                                 raw in response.body.value && ToKline(raw, quote) == Some(k)
    ensures response.Successful? && response.body.Some? && ToKlines(response.body.value, quote).Some? ==>
      r == ToKlines(response.body.value, quote).value
    ensures !(response.Successful? && response.body.Some? && ToKlines(response.body.value, quote).Some?) ==> r == []
  {
    match response
    case Successful(Some(rows)) =>
      (match ToKlines(rows, quote)
       case Some(ks) =>
         assert forall k :: k in ks ==> exists i :: 0 <= i < |rows| && ks[i] == k;
         ks
       case None => [])
    case _ => []
  }

  /**
   * The holder after the first `k` windows: each window's candles that the holder does not
   * already hold are appended, newest window first; the candles are never sorted.
   */
  function Assembled(responses: seq<Response<seq<RawKline>>>, k: nat, quote: bool): seq<KlineData>
  {
    if k == 0 then [] else AppendNew(Assembled(responses, k - 1, quote), WindowPoints(Nth(responses, k - 1), quote))
  }

  /** The published history: the holder after every window of the plan (empty for no window). */
  function HistoryOf(symbol: string, startTime: int, interval: string, now: int, responses: seq<Response<seq<RawKline>>>): (h: seq<KlineData>)
    ensures Plan(symbol, startTime, interval, now) == [] ==> h == []
  {
    var n := |Plan(symbol, startTime, interval, now)|;
    Assembled(responses, n, IsQuoteCurrency(symbol))
  }

  /**
   * The holder holds exactly the candles of the windows fetched so far: every candle held came
   * from one of them, and every candle one of them contributed is held.
   */
  lemma {:induction false} AssembledFromWindows(responses: seq<Response<seq<RawKline>>>, k: nat, quote: bool)
    ensures forall p :: p in Assembled(responses, k, quote) ==>
      exists a :: 0 <= a < k && p in WindowPoints(Nth(responses, a), quote)
    ensures forall a, p :: 0 <= a < k && p in WindowPoints(Nth(responses, a), quote) ==>
      p in Assembled(responses, k, quote)
  {
    if k > 0 {
      AssembledFromWindows(responses, k - 1, quote);
      var before := Assembled(responses, k - 1, quote);
      var points := WindowPoints(Nth(responses, k - 1), quote);
      forall p | p in Assembled(responses, k, quote)
        ensures exists a :: 0 <= a < k && p in WindowPoints(Nth(responses, a), quote)
      {
        assert p in before || p in points;
        if p in before {
          var a :| 0 <= a < k - 1 && p in WindowPoints(Nth(responses, a), quote);
          assert 0 <= a < k && p in WindowPoints(Nth(responses, a), quote);
        } else {
          assert 0 <= k - 1 < k && p in points;
        }
      }
      forall a, p | 0 <= a < k && p in WindowPoints(Nth(responses, a), quote)
        ensures p in Assembled(responses, k, quote)
      {
        if a < k - 1 {
          assert p in before;
        }
      }
    }
  }

  /** One more window adds what that window brings to the holder, with `AppendNew`. */
  lemma AssembledNext(responses: seq<Response<seq<RawKline>>>, k: nat, quote: bool)
    ensures Assembled(responses, k + 1, quote) == AppendNew(Assembled(responses, k, quote), WindowPoints(Nth(responses, k), quote))
  {
  }

  /** One more window only appends to the holder. */
  lemma AssembledStep(responses: seq<Response<seq<RawKline>>>, k: nat, quote: bool)
    requires k > 0
    ensures IsPrefix(Assembled(responses, k - 1, quote), Assembled(responses, k, quote))
  {
  }

  /**
   * The holder only grows at its end: after more windows, the holder of fewer windows is a
   * prefix, so the candles of newer windows always come before those of older ones.
   */
  lemma {:induction false} AssembledGrowsAtEnd(responses: seq<Response<seq<RawKline>>>, j: nat, k: nat, quote: bool)
    requires j <= k
    ensures IsPrefix(Assembled(responses, j, quote), Assembled(responses, k, quote))
    decreases k
  {
    var held := Assembled(responses, j, quote);
    if j == k {
      PrefixOfItself(held);
    } else {
      var before, after := Assembled(responses, k - 1, quote), Assembled(responses, k, quote);
      AssembledGrowsAtEnd(responses, j, k - 1, quote);
      AssembledStep(responses, k, quote);
      PrefixTransitive(held, before, after);
    }
  }

  /** For USDT every candle published has all four prices equal to UnitPrice, whatever was fetched. */
  lemma QuoteCurrencyHistoryIsFlat(symbol: string, startTime: int, interval: string, now: int, responses: seq<Response<seq<RawKline>>>)
    requires IsQuoteCurrency(symbol)
    ensures forall p :: p in HistoryOf(symbol, startTime, interval, now, responses) ==>
      p.open == UnitPrice && p.high == UnitPrice && p.low == UnitPrice && p.close == UnitPrice
  {
    var n := |Plan(symbol, startTime, interval, now)|;
    AssembledFromWindows(responses, n, true);
  }

  /** A window that fails, or whose rows do not convert, leaves the holder as it was. */
  lemma FailedWindowAddsNothing(responses: seq<Response<seq<RawKline>>>, a: nat, quote: bool)
    requires !Nth(responses, a).Successful? || Nth(responses, a).body.None? ||
             ToKlines(Nth(responses, a).body.value, quote).None?
    ensures Assembled(responses, a + 1, quote) == Assembled(responses, a, quote)
  {
  }

  /**
   * The holder is not sorted by open time: with two windows, the newer window's candle comes
   * first. Candles with the same open time but another close price are both kept.
   */
  lemma AssembledIsNewestWindowFirst(newer: RawKline, older: RawKline, quote: bool)
    requires ToKline(newer, quote).Some? && ToKline(older, quote).Some?
    requires ToKline(newer, quote) != ToKline(older, quote)
    ensures Assembled([Successful(Some([newer])), Successful(Some([older]))], 2, quote) ==
      [ToKline(newer, quote).value, ToKline(older, quote).value]
  {
    var rs := [Successful(Some([newer])), Successful(Some([older]))];
    var kn := ToKline(newer, quote).value;
    var ko := ToKline(older, quote).value;
    var ksn := ToKlines([newer], quote);
    assert ToKline([newer][0], quote).Some?;
    assert ksn.Some? && |ksn.value| == 1 && ToKline([newer][0], quote) == Some(ksn.value[0]);
    assert ksn.value == [ksn.value[0]];
    var kso := ToKlines([older], quote);
    assert ToKline([older][0], quote).Some?;
    assert kso.Some? && |kso.value| == 1 && ToKline([older][0], quote) == Some(kso.value[0]);
    assert kso.value == [kso.value[0]];
    assert WindowPoints(Nth(rs, 0), quote) == [kn];
    assert WindowPoints(Nth(rs, 1), quote) == [ko];
    assert Assembled(rs, 1, quote) == [kn] by {
      FreshOfAbsent([kn], []);
    }
    FreshOfAbsent([ko], [kn]);
  }
}

=== FILE: market.dfy ===
/**
 * The market list fetches of the view model: one page of the listing under the retry loop,
 * the two-hop free-text search, and the one-shot lookup by ids.
 */
module Market {
  import opened Options
  import opened Model
  import opened Retry
  import opened Merge
  import opened Commas

  /** A page attempt ends the loop as soon as the status is a success, body or no body. */
  predicate PageAnswered(r: Response<seq<Cryptocurrency>>)
  {
    r.Successful?
  }

  /**
   * The main list after loading one page: the first successful answer among the first
   * MaxAttempts is appended with `AppendNew`; a null body, or no success at all, leaves the
   * list as it was.
   */
  function PageLoaded(list: seq<Cryptocurrency>, attempts: seq<Response<seq<Cryptocurrency>>>): (r: seq<Cryptocurrency>)
    ensures |list| <= |r| && r[..|list|] == list
    ensures forall x :: x in r[|list|..] ==> x !in list
  {
    match FirstAnswer(attempts, PageAnswered)
    case None => list
    case Some(k) =>
      match attempts[k].body
      case None => list
      case Some(page) => AppendNew(list, page)
  }

  /** When none of the first MaxAttempts answers is a success, the list is exactly as before. */
  lemma PageLoadWithoutSuccess(list: seq<Cryptocurrency>, attempts: seq<Response<seq<Cryptocurrency>>>)
    requires forall k :: 0 <= k < MaxAttempts && k < |attempts| ==> !attempts[k].Successful?
    ensures PageLoaded(list, attempts) == list
    ensures AttemptCount(attempts, PageAnswered) == MaxAttempts
  {
  }

  /**
   * The first success wins: its page is appended (what is not yet present, in fetched order),
   * and the attempts after it are never made.
   */
  lemma PageLoadFirstSuccessWins(list: seq<Cryptocurrency>, attempts: seq<Response<seq<Cryptocurrency>>>, k: nat, page: seq<Cryptocurrency>)
    requires k < MaxAttempts && k < |attempts|
    requires attempts[k] == Successful(Some(page))
    requires forall j :: 0 <= j < k ==> !attempts[j].Successful?
    ensures PageLoaded(list, attempts) == list + Fresh(page, list)
    ensures AttemptCount(attempts, PageAnswered) == k + 1
  {
    assert PageAnswered(attempts[k]);
    assert FirstAnswer(attempts, PageAnswered) == Some(k);
  }

  /**
   * A first success with a null body still ends the loop, and the list is left as it was:
   * the attempts after it are never made.
   */
  lemma PageLoadNullBodyKeepsList(list: seq<Cryptocurrency>, attempts: seq<Response<seq<Cryptocurrency>>>, k: nat)
    requires k < MaxAttempts && k < |attempts|
    requires attempts[k] == Successful(None)
    requires forall j :: 0 <= j < k ==> !attempts[j].Successful?
    ensures PageLoaded(list, attempts) == list
    ensures AttemptCount(attempts, PageAnswered) == k + 1
  {
    assert PageAnswered(attempts[k]);
    assert FirstAnswer(attempts, PageAnswered) == Some(k);
  }

  /** Loading the same answers twice changes nothing the second time. */
  lemma PageLoadTwiceIsOnce(list: seq<Cryptocurrency>, attempts: seq<Response<seq<Cryptocurrency>>>)
    ensures PageLoaded(PageLoaded(list, attempts), attempts) == PageLoaded(list, attempts)
  {
    match FirstAnswer(attempts, PageAnswered)
    case None =>
    case Some(k) =>
      match attempts[k].body
      case None =>
      case Some(page) => AppendNewIdempotent(list, page);
  }

  /** After a refresh (empty list) the main list is the fetched page itself, duplicates included. */
  lemma PageLoadIntoEmptyList(attempts: seq<Response<seq<Cryptocurrency>>>, k: nat, page: seq<Cryptocurrency>)
    requires k < MaxAttempts && k < |attempts|
    requires attempts[k] == Successful(Some(page))
    requires forall j :: 0 <= j < k ==> !attempts[j].Successful?
    ensures PageLoaded([], attempts) == page
  {
    PageLoadFirstSuccessWins([], attempts, k, page);
    FreshOfAbsent(page, []);
  }

  /**
   * The "already present" test is not a test by id: the same coin fetched again with a price
   * that moved is appended beside the old row.
   */
  lemma PageLoadKeepsRepricedDuplicate(old_: Cryptocurrency, repriced: Cryptocurrency)
    requires repriced == old_.(currentPrice := old_.currentPrice + 1.0)
    ensures PageLoaded([old_], [Successful(Some([repriced]))]) == [old_, repriced]
    ensures PageLoaded([old_], [Successful(Some([repriced]))])[0].id == PageLoaded([old_], [Successful(Some([repriced]))])[1].id
  {
    PageLoadFirstSuccessWins([old_], [Successful(Some([repriced]))], 0, [repriced]);
    assert repriced !in [old_];
    FreshOfAbsent([repriced], [old_]);
  }

  /** The ids of the coins a search answered with, in order. */
  function IdsOf(list: CryptocurrencyList): seq<string>
  {
    seq(|list.cryptocurrencies|, i requires 0 <= i < |list.cryptocurrencies| => list.cryptocurrencies[i].id)
  }

  /** One attempt of the search: the free-text search, then the lookup by the ids it named. */
  datatype SearchAttempt = SearchAttempt(
    search: Response<CryptocurrencyList>,
    lookup: Response<seq<Cryptocurrency>>)

  /** What one search attempt sends: the query, then the lookup by ids when the search answered with a body. */
  datatype SearchRequest = SearchRequest(query: string, lookupIds: Option<string>)

  /** Attempt `k` of a search; past the given answers every request throws. */
  function AttemptAt(attempts: seq<SearchAttempt>, k: nat): SearchAttempt
  {
    if k < |attempts| then attempts[k] else SearchAttempt(Failed, Failed)
  }

  /**
   * The requests attempt `a` sends for `query`: the lookup is sent exactly when the search
   * answered with a success status and a body, and names that body's ids joined by commas.
   */
  function SearchIssued(query: string, a: SearchAttempt): (r: SearchRequest)
    ensures r.query == query
    ensures r.lookupIds.Some? <==> a.search.Successful? && a.search.body.Some?
  {
    match a.search
    case Successful(Some(found)) => SearchRequest(query, Some(JoinWithCommas(IdsOf(found))))
    case _ => SearchRequest(query, None)
  }

  /** A lookup that is sent names exactly the coins the search found, when it found any. */
  lemma LookupNamesFoundIds(query: string, a: SearchAttempt, found: CryptocurrencyList)
    requires a.search == Successful(Some(found))
    requires |found.cryptocurrencies| >= 1
    requires forall c :: c in found.cryptocurrencies ==> ',' !in c.id
    ensures SearchIssued(query, a).lookupIds == Some(JoinWithCommas(IdsOf(found)))
    ensures SplitAtCommas(SearchIssued(query, a).lookupIds.value) == IdsOf(found)
  {
    var ids := IdsOf(found);
    forall k | 0 <= k < |ids|
      ensures ',' !in ids[k]
    {
      assert found.cryptocurrencies[k] in found.cryptocurrencies;
    }
    SplitJoin(ids);
  }

  /**
   * A search attempt ends the loop when the search answered with a body and the lookup by ids
   * answered with a success status; every other outcome goes on to the next attempt.
   */
  predicate SearchAnswered(a: SearchAttempt)
  {
    a.search.Successful? && a.search.body.Some? && a.lookup.Successful?
  }

  /**
   * The search list after a search: replaced wholesale by the lookup body of the attempt that
   * ended the loop; unchanged when that body is null or no attempt ended it.
   */
  function SearchResult(current: seq<Cryptocurrency>, attempts: seq<SearchAttempt>): (r: seq<Cryptocurrency>)
    ensures r == current || exists k :: 0 <= k < MaxAttempts && k < |attempts| && attempts[k].lookup == Successful(Some(r))
  {
    match FirstAnswer(attempts, SearchAnswered)
    case None => current
    case Some(k) =>
      match attempts[k].lookup.body
      case None => current
      case Some(coins) => coins
  }

  /** A completed search replaces the list: whatever it held before plays no part. */
  lemma SearchReplacesWholesale(current: seq<Cryptocurrency>, attempts: seq<SearchAttempt>, k: nat, coins: seq<Cryptocurrency>)
    requires k < MaxAttempts && k < |attempts|
    requires SearchAnswered(attempts[k]) && attempts[k].lookup.body == Some(coins)
    requires forall j :: 0 <= j < k ==> !SearchAnswered(attempts[j])
    ensures SearchResult(current, attempts) == coins
    ensures AttemptCount(attempts, SearchAnswered) == k + 1
  {
    assert FirstAnswer(attempts, SearchAnswered) == Some(k);
  }

  /** When no attempt gets both hops answered, the search list keeps its old content. */
  lemma SearchWithoutAnswerKeepsList(current: seq<Cryptocurrency>, attempts: seq<SearchAttempt>)
    requires forall k :: 0 <= k < MaxAttempts && k < |attempts| ==> !SearchAnswered(attempts[k])
    ensures SearchResult(current, attempts) == current
  {
  }

  /**
   * The one-shot lookup by ids: nothing for an empty id list; otherwise, on a success with a
   * body, the returned rows that the main list does not already hold, in returned order.
   */
  function LookupByIds(ids: seq<string>, response: Response<seq<Cryptocurrency>>, list: seq<Cryptocurrency>): (r: seq<Cryptocurrency>)
    ensures ids == [] ==> r == []
    ensures forall x :: x in r <==>
      ids != [] && response.Successful? && response.body.Some? && x in response.body.value && x !in list
    ensures ids != [] && response.Successful? && response.body.Some? ==> |r| <= |response.body.value|
  {
    if ids == [] then []
    else
      match response
      case Successful(Some(coins)) => Fresh(coins, list)
      case _ => []
  }
}

=== FILE: merge.dfy ===
/**
 * The one merge step the view model uses everywhere: `list.addAll(page.filter { it !in list })`.
 * "Already present" is structural equality of the whole record, never a test by key.
 */
module Merge {

  /** `page.filter { it !in list }`: the entries of `page`, in page order, that `list` does not hold. */
  function Fresh<T(==,!new)>(page: seq<T>, list: seq<T>): (r: seq<T>)
    ensures |r| <= |page|
    ensures forall x :: x in r <==> x in page && x !in list
  {
    if page == [] then []
    else
      assert page == [page[0]] + page[1..];
      (if page[0] in list then [] else [page[0]]) + Fresh(page[1..], list)
  }

  /**
   * `list.addAll(page.filter { it !in list })`: the old entries, untouched and first, then the
   * new ones. Every filter runs against `list` as it was before the append, so two equal
   * entries of `page` that `list` does not hold are both appended.
   */
  function AppendNew<T(==,!new)>(list: seq<T>, page: seq<T>): (r: seq<T>)
    ensures |list| <= |r| && r[..|list|] == list
    ensures forall x :: x in r <==> x in list || x in page
    ensures forall x :: x in r[|list|..] ==> x !in list
  {
    var r := list + Fresh(page, list);
    assert r[|list|..] == Fresh(page, list);
    r
  }

  /**
   * Duplicates inside one page are not filtered against each other: an entry that `list`
   * does not hold occurs in the filtered page as often as in the page.
   */
  lemma {:induction false} FreshKeepsMultiplicity<T(!new)>(page: seq<T>, list: seq<T>, x: T)
    requires x !in list
    ensures multiset(Fresh(page, list))[x] == multiset(page)[x]
  {
    if page != [] {
      FreshKeepsMultiplicity(page[1..], list, x);
      assert page == [page[0]] + page[1..];
      var head: seq<T> := if page[0] in list then [] else [page[0]];
      assert multiset(Fresh(page, list)) == multiset(head) + multiset(Fresh(page[1..], list));
    }
  }

  /** No two entries of `s` are equal. */
  ghost predicate Distinct<T>(s: seq<T>)
  {
    forall i, j :: 0 <= i < j < |s| ==> s[i] != s[j]
  }

  /** Appending a page a second time changes nothing. */
  lemma AppendNewIdempotent<T(!new)>(list: seq<T>, page: seq<T>)
    ensures AppendNew(AppendNew(list, page), page) == AppendNew(list, page)
  {
    FreshOfPresent(page, AppendNew(list, page));
  }

  /** A page all of whose entries are present adds nothing. */
  lemma {:induction false} FreshOfPresent<T(!new)>(page: seq<T>, list: seq<T>)
    requires forall x :: x in page ==> x in list
    ensures Fresh(page, list) == []
  {
    if page != [] {
      assert page[0] in page;
      FreshOfPresent(page[1..], list);
    }
  }

  /** Filtering a concatenation filters each part against the same list. */
  lemma {:induction false} FreshConcat<T(!new)>(a: seq<T>, b: seq<T>, list: seq<T>)
    ensures Fresh(a + b, list) == Fresh(a, list) + Fresh(b, list)
  {
    if a == [] {
      assert a + b == b;
    } else {
      var head: seq<T> := if a[0] in list then [] else [a[0]];
      assert (a + b)[0] == a[0];
      assert (a + b)[1..] == a[1..] + b;
      calc {
        Fresh(a + b, list);
        head + Fresh(a[1..] + b, list);
        { FreshConcat(a[1..], b, list); }
        head + (Fresh(a[1..], list) + Fresh(b, list));
        (head + Fresh(a[1..], list)) + Fresh(b, list);
      }
    }
  }

  /** A page none of whose entries is present is appended whole, duplicates and all. */
  lemma {:induction false} FreshOfAbsent<T(!new)>(page: seq<T>, list: seq<T>)
    requires forall x :: x in page ==> x !in list
    ensures Fresh(page, list) == page
  {
    if page != [] {
      assert page[0] in page;
      FreshOfAbsent(page[1..], list);
    }
  }

  /** Joining two duplicate-free sequences that share nothing gives a duplicate-free sequence. */
  lemma DistinctConcat<T(!new)>(a: seq<T>, b: seq<T>)
    requires Distinct(a) && Distinct(b)
    requires forall x :: x in a ==> x !in b
    ensures Distinct(a + b)
  {
    forall i, j | 0 <= i < j < |a + b|
      ensures (a + b)[i] != (a + b)[j]
    {
      if i < |a| && |a| <= j {
        assert (a + b)[i] in a && (a + b)[j] == b[j - |a|];
      }
    }
  }

  /** Filtering a duplicate-free page keeps it duplicate-free. */
  lemma {:induction false} FreshKeepsDistinct<T(!new)>(page: seq<T>, list: seq<T>)
    requires Distinct(page)
    ensures Distinct(Fresh(page, list))
  {
    if page != [] {
      var rest := page[1..];
      assert Distinct(rest) by {
        forall i, j | 0 <= i < j < |rest| ensures rest[i] != rest[j] {
          assert rest[i] == page[i + 1] && rest[j] == page[j + 1];
        }
      }
      FreshKeepsDistinct(rest, list);
      assert page[0] !in rest by {
        forall j | 0 <= j < |rest| ensures rest[j] != page[0] {
          assert rest[j] == page[j + 1];
        }
      }
      var head: seq<T> := if page[0] in list then [] else [page[0]];
      DistinctConcat(head, Fresh(rest, list));
    }
  }

  /** Appending a duplicate-free page to a duplicate-free list keeps it duplicate-free. */
  lemma AppendNewKeepsDistinct<T(!new)>(list: seq<T>, page: seq<T>)
    requires Distinct(list) && Distinct(page)
    ensures Distinct(AppendNew(list, page))
  {
    FreshKeepsDistinct(page, list);
    DistinctConcat(list, Fresh(page, list));
  }

  /** `a` is a prefix of `b`. */
  predicate IsPrefix<T(==)>(a: seq<T>, b: seq<T>)
  {
    |a| <= |b| && b[..|a|] == a
  }

  /** Every sequence is a prefix of itself. */
  lemma PrefixOfItself<T>(a: seq<T>)
    ensures IsPrefix(a, a)
  {
    assert a[..|a|] == a;
  }

  /** A prefix of a prefix is a prefix. */
  lemma PrefixTransitive<T>(a: seq<T>, b: seq<T>, c: seq<T>)
    requires IsPrefix(a, b) && IsPrefix(b, c)
    ensures IsPrefix(a, c)
  {
    assert c[..|a|] == c[..|b|][..|a|];
  }
}

=== FILE: model.dfy ===
/**
 * The records of the market data (model/Cryptocurrency.kt). Kotlin data classes compare
 * structurally, over every field of the primary constructor; Dafny datatypes do the same,
 * so `x in list` below is exactly Kotlin's `x in list` on these records.
 */
module Model {

  /**
   * One coin row. `id` is the primary key of the local table "cryptocurrency"; it is empty
   * for a row scraped from the gainers/losers page until the name lookup backfills it.
   * The two `Double` fields are kept as exact values: the core only copies and compares them.
   */
  datatype Cryptocurrency = Cryptocurrency(
    id: string,
    name: string,
    symbol: string,
    image: string,
    currentPrice: real,
    priceChangePercentage24h: real,
    lastUpdated: string)

  /** One candle of the exchange history; times are epoch milliseconds. */
  datatype KlineData = KlineData(
    openTime: int,
    open: string,
    high: string,
    low: string,
    close: string,
    closeTime: int)

  /** The body of a free-text search: the coins it names (only their ids are used). */
  datatype CryptocurrencyList = CryptocurrencyList(cryptocurrencies: seq<Cryptocurrency>)

  /** Two coin rows are the same row exactly when all seven fields agree. */
  lemma CryptocurrencyEquality(a: Cryptocurrency, b: Cryptocurrency)
    ensures a == b <==>
      && a.id == b.id && a.name == b.name && a.symbol == b.symbol && a.image == b.image
      && a.currentPrice == b.currentPrice
      && a.priceChangePercentage24h == b.priceChangePercentage24h
      && a.lastUpdated == b.lastUpdated
  {
  }

  /** Two candles are the same candle exactly when all six fields agree, not when their open times do. */
  lemma KlineDataEquality(a: KlineData, b: KlineData)
    ensures a == b <==>
      && a.openTime == b.openTime && a.open == b.open && a.high == b.high
      && a.low == b.low && a.close == b.close && a.closeTime == b.closeTime
  {
  }
}

=== FILE: options.dfy ===
/** An optional value: Kotlin's nullable `T?` (a response body that may be null, a field that did not parse). */
module Options {
  datatype Option<+T> = None | Some(value: T)
}

=== FILE: retry.dfy ===
/**
 * Remote answers and the bounded retry loop (`repeat(15) { ... return@launch ... }`).
 * A remote call is not made here: the answers the sources gave are inputs.
 */
module Retry {
  import opened Options

  /** `repeat(15)`: how many times a retried fetch is attempted at most. */
  const MaxAttempts: nat := 15

  /**
   * What one remote call came back with: it threw (network or decode error), it answered
   * with a non-success status, or it succeeded with a body that may be null.
   */
  datatype Response<+T> = Failed | Unsuccessful | Successful(body: Option<T>)

  /** The answer to attempt `i`; attempts past the recorded answers fail. */
  function Nth<T>(answers: seq<Response<T>>, i: nat): (r: Response<T>)
    ensures i < |answers| ==> r == answers[i]
    ensures |answers| <= i ==> r == Failed
  {
    if i < |answers| then answers[i] else Failed
  }

  /**
   * The first attempt, from `i` on and among the first MaxAttempts, whose answer ends the
   * loop; None when every one of them goes on to the next attempt.
   */
  function FirstAnswerFrom<T>(attempts: seq<T>, answered: T -> bool, i: nat): (r: Option<nat>)
    decreases MaxAttempts - i
    ensures r.Some? ==> i <= r.value < MaxAttempts && r.value < |attempts|
    ensures r.Some? ==> answered(attempts[r.value])
    ensures r.Some? ==> forall j :: i <= j < r.value ==> !answered(attempts[j])
    ensures r.None? ==> forall j :: i <= j < MaxAttempts && j < |attempts| ==> !answered(attempts[j])
  {
    if MaxAttempts <= i || |attempts| <= i then None
    else if answered(attempts[i]) then Some(i)
    else FirstAnswerFrom(attempts, answered, i + 1)
  }

  /** The attempt whose answer ends the retry loop, if any of the first MaxAttempts does. */
  function FirstAnswer<T>(attempts: seq<T>, answered: T -> bool): Option<nat>
  {
    FirstAnswerFrom(attempts, answered, 0)
  }

  /** How many attempts the retry loop makes: up to and including the first answer, else all of them. */
  function AttemptCount<T>(attempts: seq<T>, answered: T -> bool): (n: nat)
    ensures 1 <= n <= MaxAttempts
    ensures FirstAnswer(attempts, answered).Some? ==> n == FirstAnswer(attempts, answered).value + 1
    ensures FirstAnswer(attempts, answered).None? ==> n == MaxAttempts
  {
    match FirstAnswer(attempts, answered)
    case Some(k) => k + 1
    case None => MaxAttempts
  }

  /** Answers recorded past the MaxAttempts-th attempt are never looked at. */
  lemma {:induction false} FirstAnswerFromIgnoresLaterAttempts<T>(attempts: seq<T>, answered: T -> bool, i: nat, m: nat)
    requires MaxAttempts <= m <= |attempts|
    ensures FirstAnswerFrom(attempts[..m], answered, i) == FirstAnswerFrom(attempts, answered, i)
    decreases MaxAttempts - i
  {
    if i < MaxAttempts {
      assert attempts[..m][i] == attempts[i];
      FirstAnswerFromIgnoresLaterAttempts(attempts, answered, i + 1, m);
    }
  }

  /** The retry loop's outcome depends on the first MaxAttempts answers only. */
  lemma FirstAnswerIgnoresLaterAttempts<T>(attempts: seq<T>, answered: T -> bool)
    requires MaxAttempts <= |attempts|
    ensures FirstAnswer(attempts[..MaxAttempts], answered) == FirstAnswer(attempts, answered)
  {
    FirstAnswerFromIgnoresLaterAttempts(attempts, answered, 0, MaxAttempts);
  }
}

=== FILE: saved.dfy ===
/**
 * The in-memory list of saved coins. The local table is keyed by `id`; the list mirrors it
 * by id on save and delete, but the startup load filters by whole-record equality.
 */
module Saved {
  import opened Model
  import opened Merge

  /** Some entry of `list` has this id: `list.any { it.id == id }`. */
  predicate HasId(list: seq<Cryptocurrency>, id: string)
  {
    exists k :: 0 <= k < |list| && list[k].id == id
  }

  /** No two entries share an id, as in a table whose primary key is `id`. */
  predicate UniqueIds(list: seq<Cryptocurrency>)
  {
    forall i, j :: 0 <= i < j < |list| ==> list[i].id != list[j].id
  }

  /**
   * `if (list.none { it.id == c.id }) list.add(c)`: the record is appended when no entry has
   * its id, and the list is left alone otherwise (even when that entry differs from it).
   */
  function SavedWith(list: seq<Cryptocurrency>, c: Cryptocurrency): (r: seq<Cryptocurrency>)
    ensures r == list || r == list + [c]
    ensures r == list <==> HasId(list, c.id)
    ensures HasId(r, c.id)
  {
    if HasId(list, c.id) then list
    else
      assert (list + [c])[|list|] == c;
      list + [c]
  }

  /** Saving the same record twice is saving it once. */
  lemma SaveTwiceIsOnce(list: seq<Cryptocurrency>, c: Cryptocurrency)
    ensures SavedWith(SavedWith(list, c), c) == SavedWith(list, c)
  {
  }

  /** Saving keeps ids unique. */
  lemma SaveKeepsUniqueIds(list: seq<Cryptocurrency>, c: Cryptocurrency)
    requires UniqueIds(list)
    ensures UniqueIds(SavedWith(list, c))
  {
    if !HasId(list, c.id) {
      var r := list + [c];
      forall i, j | 0 <= i < j < |r| ensures r[i].id != r[j].id {
        if j == |list| {
          assert r[i] == list[i];
        }
      }
    }
  }

  /**
   * `removeAll(list.filter { it.id == id })`: every entry with this id is removed and the
   * others stay, in order. (An entry equal to a removed one has its id, so removing equal
   * entries is removing by id.)
   */
  function WithoutId(list: seq<Cryptocurrency>, id: string): (r: seq<Cryptocurrency>)
    ensures |r| <= |list|
  {
    if list == [] then []
    else (if list[0].id == id then [] else [list[0]]) + WithoutId(list[1..], id)
  }

  /** After deleting, exactly the entries with another id remain, so none has this id. */
  lemma {:induction false} WithoutIdContents(list: seq<Cryptocurrency>, id: string)
    ensures forall x :: x in WithoutId(list, id) <==> x in list && x.id != id
    ensures !HasId(WithoutId(list, id), id)
  {
    var r := WithoutId(list, id);
    if list != [] {
      WithoutIdContents(list[1..], id);
      forall x
        ensures x in r <==> x in list && x.id != id
      {
        assert x in list <==> x == list[0] || x in list[1..];
      }
    }
    forall k | 0 <= k < |r|
      ensures r[k].id != id
    {
      assert r[k] in r;
    }
  }

  /** Deleting an id that no entry has changes nothing. */
  lemma {:induction false} WithoutAbsentId(list: seq<Cryptocurrency>, id: string)
    requires !HasId(list, id)
    ensures WithoutId(list, id) == list
  {
    if list != [] {
      assert !HasId(list[1..], id) by {
        forall k | 0 <= k < |list[1..]| ensures list[1..][k].id != id {
          assert list[1..][k] == list[k + 1];
        }
      }
      WithoutAbsentId(list[1..], id);
      assert list[0].id != id;
    }
  }

  /** Deleting removes from an appended tail independently of the head. */
  lemma {:induction false} WithoutIdConcat(a: seq<Cryptocurrency>, b: seq<Cryptocurrency>, id: string)
    ensures WithoutId(a + b, id) == WithoutId(a, id) + WithoutId(b, id)
  {
    if a == [] {
      assert a + b == b;
    } else {
      assert (a + b)[0] == a[0];
      assert (a + b)[1..] == a[1..] + b;
      WithoutIdConcat(a[1..], b, id);
    }
  }

  /** Deleting a record that was just saved (its id new to the list) gives the list back. */
  lemma DeleteUndoesSave(list: seq<Cryptocurrency>, c: Cryptocurrency)
    requires !HasId(list, c.id)
    ensures WithoutId(SavedWith(list, c), c.id) == list
  {
    WithoutIdConcat(list, [c], c.id);
    WithoutAbsentId(list, c.id);
    assert [c][1..] == [];
  }

  /**
   * The startup load `addAll(stored.filter { it !in list })` filters by whole-record equality,
   * so a stored row whose price differs from a listed row with the same id is appended and
   * the list then holds that id twice.
   */
  lemma StartupLoadCanRepeatId(listed: Cryptocurrency, stored: Cryptocurrency)
    requires stored == listed.(currentPrice := listed.currentPrice + 1.0)
    ensures UniqueIds([listed])
    ensures AppendNew([listed], [stored]) == [listed, stored]
    ensures !UniqueIds(AppendNew([listed], [stored]))
  {
    assert stored !in [listed];
    FreshOfAbsent([stored], [listed]);
    assert AppendNew([listed], [stored])[0].id == AppendNew([listed], [stored])[1].id;
  }
}

=== FILE: viewmodel.dfy ===
/**
 * The view model: the page counter, the loading flag, the five coin lists and the candle
 * history, changed in place by its operations. Each operation runs as one step to its end;
 * the answers of the remote sources, the stored rows and the clock readings are inputs.
 */
module ViewModel {
  import opened Options
  import opened Model
  import opened Retry
  import opened Merge
  import opened Commas
  import opened Market
  import opened GainersLosers
  import opened History
  import opened Saved

  /**
   * The `repeat(repeatNumber)` loop of the history load, on its local holder: request the
   * windows one after the other, newest first, and add what each window brings to the holder.
   */
  method CollectWindows(
    pair: string,
    quote: bool,
    startTime: int,
    endTime: int,
    intervalTimeMillis: int,
    repeatNumber: int,
    interval: string,
    windows: seq<Response<seq<RawKline>>>)
    returns (requests: seq<KlineRequest>, holder: seq<KlineData>)
    ensures requests == Requests(pair, if repeatNumber > 0 then repeatNumber else 0, repeatNumber,
                                 startTime, endTime, intervalTimeMillis, interval)
    ensures holder == Assembled(windows, |requests|, quote)
  {
    holder := [];
    requests := [];
    var count: nat := if repeatNumber > 0 then repeatNumber else 0;
    var attempt: nat := 0;
    while attempt < count
      invariant attempt <= count
      invariant requests == Requests(pair, attempt, repeatNumber, startTime, endTime, intervalTimeMillis, interval)
      invariant holder == Assembled(windows, attempt, quote)
    {
      var request := WindowRequest(pair, attempt, repeatNumber, startTime, endTime, intervalTimeMillis, interval);
      var response := Nth(windows, attempt);
      RequestsNext(pair, attempt, repeatNumber, startTime, endTime, intervalTimeMillis, interval);
      AssembledNext(windows, attempt, quote);
      requests := requests + [request];
      holder := AddWindow(holder, response, quote);
      attempt := attempt + 1;
    }
  }

  /**
   * The `repeat(15)` loop of the search, on the search list `current`: attempt after attempt
   * until one gets both hops answered.
   */
  method SearchLoop(query: string, attempts: seq<SearchAttempt>, current: seq<Cryptocurrency>)
    returns (issued: seq<SearchRequest>, list: seq<Cryptocurrency>)
    ensures list == SearchResult(current, attempts)
    ensures |issued| == AttemptCount(attempts, SearchAnswered)
    ensures forall k :: 0 <= k < |issued| ==> issued[k] == SearchIssued(query, AttemptAt(attempts, k))
  {
    list := current;
    issued := [];
    var tries := 0;
    while tries < MaxAttempts
      invariant 0 <= tries <= MaxAttempts && |issued| == tries
      invariant forall k :: 0 <= k < |issued| ==> issued[k] == SearchIssued(query, AttemptAt(attempts, k))
      invariant forall j :: 0 <= j < tries && j < |attempts| ==> !SearchAnswered(attempts[j])
      invariant list == current
    {
      var attempt := AttemptAt(attempts, tries);
      issued := issued + [SearchIssued(query, attempt)];
      tries := tries + 1;
      if attempt.search.Successful? && attempt.search.body.Some? && attempt.lookup.Successful? {
        if attempt.lookup.body.Some? {
          list := attempt.lookup.body.value;
        }
        assert FirstAnswer(attempts, SearchAnswered) == Some(tries - 1);
        return;
      }
    }
  }

  /**
   * One attempt of the history loop: on a success status, the body's rows are converted to
   * candles and those the holder does not hold are appended; an unsuccessful or failed
   * request, an absent body, or a row that does not convert adds nothing.
   */
  method AddWindow(holder: seq<KlineData>, response: Response<seq<RawKline>>, quote: bool)
    returns (next: seq<KlineData>)
    ensures next == AppendNew(holder, WindowPoints(response, quote))
  {
    next := holder;
    if response.Successful? && response.body.Some? {
      var points := ToKlines(response.body.value, quote);
      if points.Some? {
        next := holder + Fresh(points.value, holder);
      }
    }
  }

  /**
   * The `forEach` over the rows of one scraped table: convert the rows in order until one
   * throws. `complete` is false when a row threw; `coins` are the rows converted before it.
   */
  method ConvertTable(rows: seq<ScrapedRow>) returns (coins: seq<Cryptocurrency>, complete: bool)
    ensures Converted(coins, complete) == ConvertRows(rows)
  {
    coins := [];
    complete := true;
    var i := 0;
    while i < |rows| && complete
      invariant 0 <= i <= |rows|
      invariant Converted(coins, complete) == ConvertRows(rows[..i])
    {
      assert rows[..i + 1][..i] == rows[..i];
      match RowToCryptocurrency(rows[i]) {
        case None =>
          complete := false;
        case Some(c) =>
          coins := coins + [c];
      }
      i := i + 1;
    }
    if i == |rows| {
      assert rows[..i] == rows;
    } else {
      ConvertRowsStops(rows, i);
    }
  }

  class CryptocurrencyViewModel {
    /** The main market list, grown page by page and by the gainers/losers merge. */
    var cryptocurrencyList: seq<Cryptocurrency>
    /** The result of the last completed search. */
    var cryptocurrencySearchList: seq<Cryptocurrency>
    var cryptocurrencyGainerList: seq<Cryptocurrency>
    var cryptocurrencyLoserList: seq<Cryptocurrency>
    /** The coins the user saved, mirrored from the local table. */
    var savedCryptocurrencyList: seq<Cryptocurrency>
    /** The candles published for the detail chart. */
    var klineDataHistoryList: seq<KlineData>
    /** True while a unit of work is in flight; another one may have left it set. */
    var isLoading: bool
    /** The last page of the listing asked for. */
    var page: int

    ghost predicate Valid()
      reads this`page
    {
      page >= 1
    }

    /**
     * `init`: start at page 1 with empty lists, then load page 1, refresh the gainers and
     * losers and load the saved coins, in that order.
     */
    constructor (
      firstPage: seq<Response<seq<Cryptocurrency>>>,
      scrape: Response<seq<seq<ScrapedRow>>>,
      nameLookup: Response<seq<Cryptocurrency>>,
      scrapeNow: string,
      stored: seq<Cryptocurrency>)
      ensures Valid() && page == 1 && !isLoading
      ensures cryptocurrencySearchList == [] && klineDataHistoryList == []
      ensures var s := GainersLosersRefreshed(PageLoaded([], firstPage), scrape, nameLookup, scrapeNow);
        && cryptocurrencyList == s.main
        && cryptocurrencyGainerList == s.gainers
        && cryptocurrencyLoserList == s.losers
      ensures savedCryptocurrencyList == AppendNew([], stored)
    {
      cryptocurrencyList := [];
      cryptocurrencySearchList := [];
      cryptocurrencyGainerList := [];
      cryptocurrencyLoserList := [];
      savedCryptocurrencyList := [];
      klineDataHistoryList := [];
      isLoading := false;
      page := 1;
      new;
      var requested := AddCryptocurrenciesByPage(page, firstPage);
      assert page == 1 && cryptocurrencySearchList == [] && klineDataHistoryList == [] && savedCryptocurrencyList == [];
      var nameQuery := SetGainersAndLosersList(scrape, nameLookup, scrapeNow);
      assert page == 1 && cryptocurrencySearchList == [] && klineDataHistoryList == [] && savedCryptocurrencyList == [];
      SetSavedCryptocurrencies(stored);
    }

    /**
     * Back to page 1: the main list is emptied and page 1 loaded into it. `requested` are the
     * page numbers the listing was asked for, one per attempt made.
     */
    method RefreshHomeScreen(attempts: seq<Response<seq<Cryptocurrency>>>)
      returns (requested: seq<int>)
      modifies this`page, this`cryptocurrencyList, this`isLoading
      ensures Valid() && page == 1
      ensures cryptocurrencyList == PageLoaded([], attempts)
      ensures !isLoading
      ensures |requested| == AttemptCount(attempts, PageAnswered)
      ensures forall k :: 0 <= k < |requested| ==> requested[k] == 1
    {
      page := 1;
      cryptocurrencyList := [];
      requested := AddCryptocurrenciesByPage(page, attempts);
    }

    /** The gainers/losers screen is refreshed by scraping again. */
    method RefreshGainerLoserScreen(
      scrape: Response<seq<seq<ScrapedRow>>>,
      nameLookup: Response<seq<Cryptocurrency>>,
      now: string)
      returns (nameQuery: Option<string>)
      modifies this`cryptocurrencyGainerList, this`cryptocurrencyLoserList, this`cryptocurrencyList, this`isLoading
      ensures var s := GainersLosersRefreshed(old(cryptocurrencyList), scrape, nameLookup, now);
        && cryptocurrencyList == s.main
        && cryptocurrencyGainerList == s.gainers
        && cryptocurrencyLoserList == s.losers
      ensures nameQuery.Some? <==> ScrapeCompleted(scrape)
      ensures ScrapeCompleted(scrape) ==>
        nameQuery == Some(NameQuery(ScrapeLists(ScrapedTables(scrape)).gainers, ScrapeLists(ScrapedTables(scrape)).losers))
      ensures !isLoading
    {
      nameQuery := SetGainersAndLosersList(scrape, nameLookup, now);
    }

    /**
     * The detail screen: refresh the home and gainers/losers screens, then load one day of
     * one-minute candles up to now. `clock` is the time read for the start of that day and
     * `now` the time the history step reads for its end. The lists are left as
     * RefreshHomeScreen and then RefreshGainerLoserScreen leave them.
     */
    method RefreshDetailScreen(
      symbol: string,
      firstPage: seq<Response<seq<Cryptocurrency>>>,
      scrape: Response<seq<seq<ScrapedRow>>>,
      nameLookup: Response<seq<Cryptocurrency>>,
      scrapeNow: string,
      clock: int,
      now: int,
      windows: seq<Response<seq<RawKline>>>)
      returns (requests: seq<KlineRequest>)
      modifies this`page, this`cryptocurrencyList, this`cryptocurrencyGainerList, this`cryptocurrencyLoserList
      modifies this`klineDataHistoryList, this`isLoading
      ensures Valid() && page == 1 && !isLoading
      ensures requests == Plan(symbol, clock - 24 * 60 * 60 * 1000, "1m", now)
      ensures klineDataHistoryList == HistoryOf(symbol, clock - 24 * 60 * 60 * 1000, "1m", now, windows)
    {
      var pages := RefreshHomeScreen(firstPage);
      var nameQuery := RefreshGainerLoserScreen(scrape, nameLookup, scrapeNow);
      klineDataHistoryList := [];
      requests := SetCryptocurrencyHistory(symbol, clock - 24 * 60 * 60 * 1000, "1m", now, windows);
    }

    /**
     * The next page, unless a unit of work is in flight: then nothing at all happens.
     * Otherwise the page counter goes up by one and that page is loaded. `requested` are the
     * page numbers the listing was asked for, one per attempt made.
     */
    method LoadMore(attempts: seq<Response<seq<Cryptocurrency>>>)
      returns (requested: seq<int>)
      requires Valid()
      modifies this`page, this`cryptocurrencyList, this`isLoading
      ensures Valid()
      ensures old(isLoading) ==> page == old(page) && cryptocurrencyList == old(cryptocurrencyList) && isLoading
      ensures !old(isLoading) ==> page == old(page) + 1 && !isLoading &&
                                  cryptocurrencyList == PageLoaded(old(cryptocurrencyList), attempts)
      ensures old(isLoading) ==> requested == []
      ensures !old(isLoading) ==> |requested| == AttemptCount(attempts, PageAnswered) &&
                                  forall k :: 0 <= k < |requested| ==> requested[k] == old(page) + 1
    {
      requested := [];
      if !isLoading {
        page := page + 1;
        requested := AddCryptocurrenciesByPage(page, attempts);
      }
    }

    /**
     * Load page `pageNumber` under the retry loop: attempt after attempt, up to MaxAttempts,
     * until one answers with a success status; its body, if any, is appended with what is
     * not yet in the main list. `attempts` are the answers the listing gave, in order, and
     * `requested` the page numbers it was asked for, one per attempt made.
     */
    method AddCryptocurrenciesByPage(pageNumber: int, attempts: seq<Response<seq<Cryptocurrency>>>)
      returns (requested: seq<int>)
      modifies this`cryptocurrencyList, this`isLoading
      ensures cryptocurrencyList == PageLoaded(old(cryptocurrencyList), attempts)
      ensures |requested| == AttemptCount(attempts, PageAnswered)
      ensures forall k :: 0 <= k < |requested| ==> requested[k] == pageNumber
      ensures !isLoading
    {
      isLoading := true;
      requested := [];
      var tries := 0;
      while tries < MaxAttempts
        invariant 0 <= tries <= MaxAttempts && |requested| == tries
        invariant forall k :: 0 <= k < |requested| ==> requested[k] == pageNumber
        invariant forall j :: 0 <= j < tries && j < |attempts| ==> !PageAnswered(attempts[j])
        invariant cryptocurrencyList == old(cryptocurrencyList)
      {
        var response := Nth(attempts, tries);
        requested := requested + [pageNumber];
        tries := tries + 1;
        if response.Successful? {
          if response.body.Some? {
            cryptocurrencyList := cryptocurrencyList + Fresh(response.body.value, cryptocurrencyList);
          }
          assert FirstAnswer(attempts, PageAnswered) == Some(tries - 1);
          break;
        }
      }
      isLoading := false;
    }

    /**
     * Search under the retry loop: each attempt runs the free-text search and, when it
     * answered with a body, the lookup by the ids it named. The first lookup with a success
     * status ends the loop and, when it has a body, replaces the search list with it.
     * `issued` are the requests sent, one entry per attempt made.
     */
    method SearchCryptocurrencies(query: string, attempts: seq<SearchAttempt>)
      returns (issued: seq<SearchRequest>)
      modifies this`cryptocurrencySearchList, this`isLoading
      ensures cryptocurrencySearchList == SearchResult(old(cryptocurrencySearchList), attempts)
      ensures |issued| == AttemptCount(attempts, SearchAnswered)
      ensures forall k :: 0 <= k < |issued| ==> issued[k] == SearchIssued(query, AttemptAt(attempts, k))
      ensures !isLoading
    {
      isLoading := true;
      issued, cryptocurrencySearchList := SearchLoop(query, attempts, cryptocurrencySearchList);
      isLoading := false;
    }

    /**
     * One lookup by ids, without retry: nothing (and the loading flag untouched) for no ids;
     * else the rows returned that the main list does not hold. `request` is the ids
     * parameter sent, the ids joined by commas, and nothing when no request is made.
     */
    method GetCryptocurrenciesByIds(ids: seq<string>, response: Response<seq<Cryptocurrency>>)
      returns (holder: seq<Cryptocurrency>, request: Option<string>)
      modifies this`isLoading
      ensures holder == LookupByIds(ids, response, cryptocurrencyList)
      ensures request.None? <==> ids == []
      ensures request.Some? ==> request.value == JoinWithCommas(ids)
      ensures request.Some? ==> SplitAtCommas(request.value) == ids || exists k :: 0 <= k < |ids| && ',' in ids[k]
      ensures isLoading == (if ids == [] then old(isLoading) else false)
    {
      holder := [];
      request := None;
      if ids == [] {
        return;
      }
      request := Some(JoinWithCommas(ids));
      JoinedSplitsBack(ids);
      isLoading := true;
      if response.Successful? && response.body.Some? {
        holder := holder + Fresh(response.body.value, cryptocurrencyList);
      }
      isLoading := false;
    }

    /**
     * The backfill: for every record the name lookup returned, in order, every gainer and
     * loser with the same name gets its id and `now` as last update.
     */
    method SetCryptocurrencyIdsByNames(lookup: Response<seq<Cryptocurrency>>, now: string)
      returns (query: string)
      modifies this`cryptocurrencyGainerList, this`cryptocurrencyLoserList
      ensures query == NameQuery(old(cryptocurrencyGainerList), old(cryptocurrencyLoserList))
      ensures cryptocurrencyGainerList == BackfilledAll(old(cryptocurrencyGainerList), lookup, now)
      ensures cryptocurrencyLoserList == BackfilledAll(old(cryptocurrencyLoserList), lookup, now)
    {
      query := NameQuery(cryptocurrencyGainerList, cryptocurrencyLoserList);
      if !(lookup.Successful? && lookup.body.Some?) {
        return;
      }
      var body := lookup.body.value;
      ghost var gainers := cryptocurrencyGainerList;
      ghost var losers := cryptocurrencyLoserList;
      assert body[..0] == [];
      var i := 0;
      while i < |body|
        invariant 0 <= i <= |body|
        invariant cryptocurrencyGainerList == BackfilledAll(gainers, Successful(Some(body[..i])), now)
        invariant cryptocurrencyLoserList == BackfilledAll(losers, Successful(Some(body[..i])), now)
      {
        BackfilledAllStep(gainers, body, i, now);
        BackfilledAllStep(losers, body, i, now);
        OverwriteByName(body[i], now);
        i := i + 1;
      }
      assert body[..i] == body;
    }

    /** One looked-up record: every gainer, then every loser, with its name takes its id and `now`. */
    method OverwriteByName(record: Cryptocurrency, now: string)
      modifies this`cryptocurrencyGainerList, this`cryptocurrencyLoserList
      ensures cryptocurrencyGainerList == Overwritten(old(cryptocurrencyGainerList), record, now)
      ensures cryptocurrencyLoserList == Overwritten(old(cryptocurrencyLoserList), record, now)
    {
      ghost var gainers := cryptocurrencyGainerList;
      ghost var losers := cryptocurrencyLoserList;
      var k := 0;
      while k < |cryptocurrencyGainerList| + |cryptocurrencyLoserList|
        invariant 0 <= k <= |gainers| + |losers|
        invariant |cryptocurrencyGainerList| == |gainers| && |cryptocurrencyLoserList| == |losers|
        invariant forall j :: 0 <= j < |gainers| ==>
          cryptocurrencyGainerList[j] == if j < k then Overwritten(gainers, record, now)[j] else gainers[j]
        invariant forall j :: 0 <= j < |losers| ==>
          cryptocurrencyLoserList[j] == if |gainers| + j < k then Overwritten(losers, record, now)[j] else losers[j]
      {
        if k < |cryptocurrencyGainerList| {
          var c := cryptocurrencyGainerList[k];
          if c.name == record.name {
            cryptocurrencyGainerList := cryptocurrencyGainerList[k := c.(id := record.id, lastUpdated := now)];
          }
        } else {
          var m := k - |cryptocurrencyGainerList|;
          var c := cryptocurrencyLoserList[m];
          if c.name == record.name {
            cryptocurrencyLoserList := cryptocurrencyLoserList[m := c.(id := record.id, lastUpdated := now)];
          }
        }
        k := k + 1;
      }
    }

    /**
     * The gainers/losers refresh: empty both lists, then, if the page was fetched, add each
     * row of the first table to the gainers and each row of the later tables to the losers
     * until a row throws; when none did, backfill the ids and merge both lists into the main
     * list.
     */
    method SetGainersAndLosersList(
      scrape: Response<seq<seq<ScrapedRow>>>,
      nameLookup: Response<seq<Cryptocurrency>>,
      now: string)
      returns (nameQuery: Option<string>)
      modifies this`cryptocurrencyGainerList, this`cryptocurrencyLoserList, this`cryptocurrencyList, this`isLoading
      ensures var s := GainersLosersRefreshed(old(cryptocurrencyList), scrape, nameLookup, now);
        && cryptocurrencyList == s.main
        && cryptocurrencyGainerList == s.gainers
        && cryptocurrencyLoserList == s.losers
      ensures nameQuery.Some? <==> ScrapeCompleted(scrape)
      ensures ScrapeCompleted(scrape) ==>
        nameQuery == Some(NameQuery(ScrapeLists(ScrapedTables(scrape)).gainers, ScrapeLists(ScrapedTables(scrape)).losers))
      ensures !isLoading
    {
      nameQuery := None;
      cryptocurrencyGainerList := [];
      cryptocurrencyLoserList := [];
      isLoading := true;
      if scrape.Successful? {
        var tables := ScrapedTables(scrape);
        var complete := true;
        var t := 0;
        while t < |tables| && complete
          invariant 0 <= t <= |tables|
          invariant ScrapeLists(tables[..t]) == Scraped(cryptocurrencyGainerList, cryptocurrencyLoserList, complete)
          invariant cryptocurrencyList == old(cryptocurrencyList)
        {
          complete := AddTableRows(t, tables[t]);
          assert tables[..t + 1][..t] == tables[..t];
          t := t + 1;
        }
        if complete {
          assert tables[..t] == tables;
        } else {
          ScrapeListsStops(tables, t);
        }
        if complete {
          var query := SetCryptocurrencyIdsByNames(nameLookup, now);
          nameQuery := Some(query);
          cryptocurrencyList := MergeGainersLosers(cryptocurrencyList, cryptocurrencyGainerList, cryptocurrencyLoserList);
        }
      }
      isLoading := false;
    }

    /**
     * The rows of table `index`, in order, until one throws: to the gainers for the first
     * table, to the losers for every later one. `complete` is false when a row threw.
     */
    method AddTableRows(index: nat, rows: seq<ScrapedRow>) returns (complete: bool)
      modifies this`cryptocurrencyGainerList, this`cryptocurrencyLoserList
      ensures var conv := ConvertRows(rows);
        && complete == conv.complete
        && (index == 0 ==> cryptocurrencyGainerList == old(cryptocurrencyGainerList) + conv.coins &&
                           cryptocurrencyLoserList == old(cryptocurrencyLoserList))
        && (index != 0 ==> cryptocurrencyGainerList == old(cryptocurrencyGainerList) &&
                           cryptocurrencyLoserList == old(cryptocurrencyLoserList) + conv.coins)
    {
      var coins;
      coins, complete := ConvertTable(rows);
      if index == 0 {
        cryptocurrencyGainerList := cryptocurrencyGainerList + coins;
      } else {
        cryptocurrencyLoserList := cryptocurrencyLoserList + coins;
      }
    }

    /**
     * The candle history: the end time is the clock cut to a whole second, the interval
     * gives the candle length, and the span between them the number of windows; the windows
     * are then fetched by FetchHistory.
     */
    method SetCryptocurrencyHistory(
      symbol: string,
      startTime: int,
      interval: string,
      now: int,
      windows: seq<Response<seq<RawKline>>>)
      returns (requests: seq<KlineRequest>)
      modifies this`klineDataHistoryList, this`isLoading
      ensures requests == Plan(symbol, startTime, interval, now)
      ensures klineDataHistoryList == HistoryOf(symbol, startTime, interval, now, windows)
      ensures !isLoading
    {
      var endTime := EndTime(now);
      var intervalTimeMillis := IntervalMillis(interval);
      var repeatNumber := WindowCount(startTime, endTime, intervalTimeMillis);
      requests := FetchHistory(PairSymbol(symbol), IsQuoteCurrency(symbol), startTime, endTime, intervalTimeMillis, repeatNumber, interval, windows);
    }

    /**
     * The launched part of the history load: clear the published history, collect the
     * windows into a holder, and publish the holder.
     */
    method FetchHistory(
      pair: string,
      quote: bool,
      startTime: int,
      endTime: int,
      intervalTimeMillis: int,
      repeatNumber: int,
      interval: string,
      windows: seq<Response<seq<RawKline>>>)
      returns (requests: seq<KlineRequest>)
      modifies this`klineDataHistoryList, this`isLoading
      ensures requests == Requests(pair, if repeatNumber > 0 then repeatNumber else 0, repeatNumber,
                                   startTime, endTime, intervalTimeMillis, interval)
      ensures klineDataHistoryList == Assembled(windows, |requests|, quote)
      ensures !isLoading
    {
      isLoading := true;
      klineDataHistoryList := [];
      var holder;
      requests, holder := CollectWindows(pair, quote, startTime, endTime, intervalTimeMillis, repeatNumber, interval, windows);
      isLoading := false;
      klineDataHistoryList := holder;
    }

    /** Save: write-through to the table, then append unless an entry already has the id. */
    method SaveCryptocurrency(c: Cryptocurrency)
      modifies this`savedCryptocurrencyList
      ensures savedCryptocurrencyList == SavedWith(old(savedCryptocurrencyList), c)
    {
      var present := false;
      var k := 0;
      while k < |savedCryptocurrencyList|
        invariant 0 <= k <= |savedCryptocurrencyList|
        invariant present <==> HasId(savedCryptocurrencyList[..k], c.id)
      {
        assert savedCryptocurrencyList[..k + 1][..k] == savedCryptocurrencyList[..k];
        if savedCryptocurrencyList[k].id == c.id {
          present := true;
        }
        k := k + 1;
      }
      assert savedCryptocurrencyList[..k] == savedCryptocurrencyList;
      if !present {
        savedCryptocurrencyList := savedCryptocurrencyList + [c];
      }
    }

    /** Delete: write-through to the table, then remove every entry with the record's id. */
    method DeleteCryptocurrency(c: Cryptocurrency)
      modifies this`savedCryptocurrencyList
      ensures savedCryptocurrencyList == WithoutId(old(savedCryptocurrencyList), c.id)
    {
      if HasId(savedCryptocurrencyList, c.id) {
        savedCryptocurrencyList := WithoutId(savedCryptocurrencyList, c.id);
      } else {
        WithoutAbsentId(savedCryptocurrencyList, c.id);
      }
    }

    /** The startup load: append the stored rows that the list does not already hold. */
    method SetSavedCryptocurrencies(stored: seq<Cryptocurrency>)
      modifies this`savedCryptocurrencyList
      ensures savedCryptocurrencyList == AppendNew(old(savedCryptocurrencyList), stored)
    {
      savedCryptocurrencyList := savedCryptocurrencyList + Fresh(stored, savedCryptocurrencyList);
    }
  }
}
